=== FILE: README.md ===
# ElmFire native binding, modelled in Dafny

ElmFire is an Elm binding for the Firebase real-time database. Its native layer (two
JavaScript files) turns Elm values into calls of the Firebase SDK and turns the SDK's answers
back into Elm values and task outcomes. This project models that layer:

- **Values** (`values.dfy`, `elm.dfy`): JavaScript values and truthiness; `asMaybe` and
  `fromMaybe`; priority conversion.
- **Errors** (`errors.dfy`): the error taxonomy. It covers the database error table, the
  exception path and the location failure.
- **References** (`references.dfy`): location resolution (`getRefStep`, `getRef`, `key`).
  - A backend handle is modelled as the path of node names from the root.
  - Turning a URL into a path, and rejecting a child name, are the SDK's job, so they are a
    parameter (`References.Backend`).
  - `push()` draws its fresh key from a counter that is threaded through resolution.
- **Queries** (`queries.dfy`): `queryEventType` and `queryOrderAndFilter`.
  - The builder calls are first derived as clauses, each remembering the `if` block it came
    from.
  - Each clause is then turned into a builder call (method name and arguments).
- **Snapshots** (`snapshots.dfy`): `snapshot2elm`, `toSnapshotList`, `toListGeneric` and the
  value/key/pair projections.
- **Operations** (`operations.dfy`, `sdk.dfy`): `open`, `set`, `setWithPriority`, `update`,
  `remove`, `setPriority`, `onDisconnectCancel`, `transaction` and `once`.
  - How the SDK answers is a parameter: it throws, it reports an error to the callback, or it
    completes.
  - Each operation returns its task outcome, the SDK calls it made, and the push counter.
- **Subscriptions** (`subscriptions.dfy`): the subscription registry (the `sNum` counter and
  the `subscriptions` table), with `subscribeConditional`, `unsubscribe` and the two listener
  callbacks.
- **Auth** (`auth.dfy`): the authentication layer.
  - `toObject` and the authentication error table.
  - `auth2elm` and `maybeAuth2elm`.
  - `authenticate`, `userOperation`, `subscribeAuth`, `unsubscribeAuth` and `getAuth`.

Some behaviours of the code are modelled as written, even where they look surprising:

- `toSnapshotList` stores a bare string in a child's `prevKey`: `""` for the first child, then
  the previous child's key. `snapshot2elm` stores a `Maybe` there. `Snapshots.PrevKey` has
  one constructor for each shape.
- `unsubscribe` of an unknown id fails with a bare `UnknownSubscription` value, not an error
  record. It is modelled as `Errors.Error.UnknownSubscription`.
- `subscribeConditional` stores the registry entry before it calls `.on`.
  - If `.on` throws, the task fails, but the id stays consumed and the entry stays stored.
  - A backend cancellation (`onCancel`) dispatches a `QueryError` but never removes the entry.
- `queryOrderAndFilter` applies each present field independently. Nothing checks that a range
  or limit comes together with an ordering.
  - A falsy field emits no call: a limit of 0, an empty key bound, or a value bound of 0, `""`,
    `false` or null.
  - A priority bound is always applied.
- The check for a missing reference at the end of `getRefStep` (src/Native/ElmFire.js:114-116)
  can never fire in a model where every resolution step yields a path or throws, so it has no
  branch here.

## Model

| member | source | states |
|---|---|---|
| Decimal.NatToString | src/Native/ElmFire.js:277-279 | the rendering of a counter value is a non-empty string of decimal digits, one digit exactly below 10 |
| Decimal.NatToStringInjective | src/Native/ElmFire.js:277-279 | different counter values render as different strings, so `'q' + n` and push keys never collide |
| Values.Prop | src/Native/ElmFire/Auth.js:222 | a property read on a non-object is undefined; on an object it is the stored property |
| Values.JsAnd | src/Native/ElmFire/Auth.js:222 | `a && b` is truthy exactly when both operands are |
| Values.AsMaybe | src/Native/ElmFire.js:20-26 | `Nothing` exactly for undefined and null, otherwise `Just` of the value itself |
| Values.FromMaybe | src/Native/ElmFire.js:28-30 | inverse of `asMaybe`: `Nothing` and every `Just` of a non-null value survive the round trip |
| Values.FromAsMaybe | src/Native/ElmFire.js:20-30 | `fromMaybe(asMaybe(v))` returns `v`, except that undefined becomes null |
| Values.Priority2Fb | src/Native/ElmFire.js:32-34 | produces null, a number or a string, and `priority2elm` maps it back to the same priority |
| Values.Priority2Elm | src/Native/ElmFire.js:36-45 | numbers become `NumberPriority`, strings `StringPriority`, each with its payload; anything else `NoPriority` |
| Values.FbPriorityRoundTrip | src/Native/ElmFire.js:32-45 | a backend priority (null, number or string) survives `priority2fb(priority2elm(v))` unchanged |
| Errors.TagOrFallbackAsWritten | src/Native/ElmFire.js:61-67 | a table lookup followed by a falsy test: own entries give their tag, inherited member names give the member, everything else the fallback |
| Errors.InheritedCodeEscapesFbTable | src/Native/ElmFire.js:55-67 | as written, an error code such as "constructor" or "toString" yields an inherited member instead of a tag |
| Errors.FbErrorTag | src/Native/ElmFire.js:55-67 | each of the three table codes maps to its own tag (both directions); every other code gives `OtherFirebaseError`; never a location or auth tag |
| Errors.FbErrorTagMatchesAsWritten | src/Native/ElmFire.js:55-67 | on every code that is not an inherited member name, the corrected lookup agrees with the code as written |
| Errors.FbTaskError | src/Native/ElmFire.js:61-67 | the error text is kept; the tag is one of the four database tags, the table's tag for a table code and `OtherFirebaseError` exactly otherwise |
| Errors.ExTaskError | src/Native/ElmFire.js:73-75 | an exception becomes `OtherFirebaseError` carrying the exception text |
| Errors.ExceptionReadsAsUnknownCode | src/Native/ElmFire.js:61-75 | an exception is indistinguishable from a backend error whose code has no table entry |
| Errors.LocationFailure | src/Native/ElmFire.js:120-129 | a resolution failure becomes a `LocationError` carrying the thrown text |
| References.PushKeyInjective | src/Native/ElmFire.js:107-109 | different counter values give different push keys |
| References.GetRefStep | src/Native/ElmFire.js:91-118 | resolution draws at most one key per `push` step, and exactly one per step when it succeeds |
| References.UrlLocationResolves | src/Native/ElmFire.js:94-96 | a URL location resolves to exactly what the SDK's constructor makes of the URL (its handle or its exception text), drawing no key |
| References.RejectedUrlFails | src/Native/ElmFire.js:120-129 | a URL the SDK's constructor rejects makes `getRef` fail with that exception text as a `LocationError`, with no handle and the counter unchanged |
| References.RejectedChildNameFails | src/Native/ElmFire.js:97-99 | a child name the SDK rejects fails resolution with the SDK's text as a `LocationError` |
| References.GetRef | src/Native/ElmFire.js:120-129 | success exactly when `getRefStep` succeeds, with the same handle; any thrown text becomes a `LocationError`; the counter is the one resolution left |
| References.Key | src/Native/ElmFire.js:135-141 | the handle's last name, or "" at the root where the SDK's key is null |
| References.RefLocationIsIdentity | src/Native/ElmFire.js:110-112 | a `RefLocation` resolves to its own handle and draws no key |
| References.SubLocationKey | src/Native/ElmFire.js:97-99 | a child location resolves exactly when the SDK accepts the name, and then its key is the child's name |
| References.ParentOfSubLocation | src/Native/ElmFire.js:97-103 | the parent of a child location with an accepted name is the original handle |
| References.ParentOfRootFails | src/Native/ElmFire.js:100-103 | the parent of the root fails with "Error: Root has no parent" as a `LocationError` |
| References.ParentOfRootUrlFails | src/Native/ElmFire.js:94-103 | the parent of a URL naming the root fails with that error |
| References.RootLocationIsRoot | src/Native/ElmFire.js:104-106 | `root()` of a resolvable location is the store's root: the empty path, with key "" and a parent that fails with "Error: Root has no parent" |
| References.RootIdempotent | src/Native/ElmFire.js:104-106 | taking the root twice is the same as taking it once |
| References.PushLocationIsChild | src/Native/ElmFire.js:107-109 | `push()` of a resolvable location is a new child of its handle: one level deeper, with that handle as parent and the freshly drawn push key as key; the counter moves by one |
| References.FailurePropagates | src/Native/ElmFire.js:91-118 | a failure in a sub-location is the failure of every navigation step built on it |
| References.ResolutionPureWithoutPush | src/Native/ElmFire.js:91-118 | without `push` steps, the counter neither affects the handle nor moves |
| References.RepeatedPushYieldsDistinctChildren | src/Native/ElmFire.js:107-109 | resolving the same push location twice in a row gives two different handles, each one level below the location's handle (the same handle both times when the location has no push of its own) |
| Queries.QueryEventType | src/Native/ElmFire.js:281-293 | the error text is returned exactly when no event is set; each of the five events has its own backend name ("value", "child_added", "child_changed", "child_removed", "child_moved"), both directions |
| Queries.QueryEventTypeInjective | src/Native/ElmFire.js:281-293 | distinct events listen under distinct backend names |
| Queries.Rank | src/Native/ElmFire.js:295-350 | each clause has a block position within the eleven blocks |
| Queries.Block | src/Native/ElmFire.js:295-350 | one block emits at most one clause, and exactly the clause its field selects |
| Queries.ClausesFrom | src/Native/ElmFire.js:295-350 | the blocks from a position on emit clauses in block order, exactly the selected ones |
| Queries.Clauses | src/Native/ElmFire.js:295-350 | the compiled clauses are in block order, and a clause is compiled exactly when its field is present and truthy |
| Queries.StrictlyRankedDeterminedByMembers | src/Native/ElmFire.js:295-350 | two lists in strict block order with the same members are equal |
| Queries.ClausesUnique | src/Native/ElmFire.js:295-350 | block order plus the membership rule determine the compiled clause list uniquely |
| Queries.ToCall | src/Native/ElmFire.js:295-347 | each builder name exactly for its clauses (`startAt` for the value, key and priority start bounds, `endAt` likewise, one name each for the orderings and limits); the argument is the child name, the bound value, the key or the limit; a priority bound passes `priority2fb` of its priority (null for no priority), plus its key, and has two arguments exactly when it carries a key |
| Queries.PriorityArgs | src/Native/ElmFire.js:321-340 | the first argument is `priority2fb` of the bound's priority (null for no priority), which converts back to it; a key adds the key as a second argument |
| Queries.GroupOfClause | src/Native/ElmFire.js:295-350 | ordering blocks emit ordering calls, range blocks range calls, limit blocks limit calls |
| Queries.QueryOrderAndFilter | src/Native/ElmFire.js:295-350 | one builder call per compiled clause, in the same order, each with the builder name and arguments `ToCall` states |
| Queries.CompiledCallsGrouped | src/Native/ElmFire.js:295-350 | every ordering call precedes every range call, which precedes every limit call |
| Queries.SelectedClauseCalled | src/Native/ElmFire.js:295-350 | every selected clause appears as its call in the compiled query |
| Queries.PriorityBoundArity | src/Native/ElmFire.js:321-340 | a present priority bound is always applied, with one argument without a key and two with one |
| Queries.TwoArgumentCallsCarryPriorityKeys | src/Native/ElmFire.js:321-340 | only a priority bound that carries a key produces a two-argument call |
| Queries.ZeroLimitsSkipped | src/Native/ElmFire.js:342-347 | a limit of 0 is falsy and emits no limit call |
| Queries.EmptyKeyBoundsSkipped | src/Native/ElmFire.js:316-321 | an empty key bound is falsy and emits no bound |
| Queries.FalsyValueBoundsSkipped | src/Native/ElmFire.js:310-315 | a falsy value bound emits no bound |
| Snapshots.Snapshot2Elm | src/Native/ElmFire.js:352-367 | keeps the subscription, handle and SDK snapshot; the key is the handle's key; the value is `Nothing` exactly for null; the priority converts back to the backend's; prevKey is wrapped |
| Snapshots.FbPriorityRoundTripIfRepresentable | src/Native/ElmFire.js:32-45 | a null, number or string priority survives the round trip |
| Snapshots.ChildSnapshot | src/Native/ElmFire.js:449-458 | a child is converted as `snapshot2elm` does under the tag `_child_` (its handle, key, value, priority and backend snapshot), with the given bare prevKey |
| Snapshots.ChildSnapshots | src/Native/ElmFire.js:449-458 | one `_child_` snapshot per child, in order, each the conversion of that child with its handle and priority; each prevKey is the previous child's key, starting from the given one |
| Snapshots.ToSnapshotList | src/Native/ElmFire.js:449-458 | one `_child_` snapshot per child in order, each the conversion of that child with its handle, priority, key and value; the first prevKey is "" and each later one is the previous snapshot's key |
| Snapshots.ToListGeneric | src/Native/ElmFire.js:460-466 | one projected element per child, in the SDK's child order |
| Snapshots.ToValueList | src/Native/ElmFire.js:468-472 | one element per child, in order: the child's value |
| Snapshots.ToKeyList | src/Native/ElmFire.js:474-478 | one element per child, in order: the child's raw key (null at the root) |
| Snapshots.ToPairList | src/Native/ElmFire.js:480-484 | one element per child, in order: the child's raw key paired with its value |
| Snapshots.ProjectionsAgree | src/Native/ElmFire.js:449-484 | the key, value and pair lists line up with `toSnapshotList`, element by element |
| Snapshots.PrevKeysFollowKeyList | src/Native/ElmFire.js:449-478 | each child's prevKey is the previous entry of `toKeyList` |
| Snapshots.TwoChildrenExample | src/Native/ElmFire.js:449-458 | children keyed "a" and "b" get prevKeys "" and "a" |
| Operations.Settle | src/Native/ElmFire.js:81-89 | success exactly when the SDK completes cleanly, then with `res`; a callback error is translated by `fbTaskError`, a throw by `exTaskError` |
| Operations.Open | src/Native/ElmFire.js:143-150 | succeeds with the resolved handle exactly when resolution succeeds, without any SDK call |
| Operations.MutationCall | src/Native/ElmFire.js:152-231 | each mutation calls its own SDK method (`set`, `setWithPriority`, `update`, `remove`, both directions) with its value, and for `setWithPriority` with `priority2fb` of the given priority (null for no priority), which converts back to it |
| Operations.Mutate | src/Native/ElmFire.js:152-231 | resolution failures short-circuit; otherwise one write of the mutation's method, value and `priority2fb` priority goes to the disconnect handle exactly when `onDisconnect` is set, and succeeds with unit there and the handle otherwise; both error origins translated |
| Operations.RejectedUrlWritesNothing | src/Native/ElmFire.js:120-129 | a write to a URL the SDK rejects fails with a `LocationError` carrying the SDK's text and makes no call |
| Operations.RejectedChildNameWritesNothing | src/Native/ElmFire.js:97-99 | a write to a child name the SDK rejects fails with a `LocationError` and makes no call |
| Operations.SetPriority | src/Native/ElmFire.js:186-197 | one `setPriority` call on the node whose argument converts back to the given priority; success with the handle exactly on clean completion; a callback error goes through `fbTaskError`, a throw through `exTaskError` |
| Operations.OnDisconnectCancel | src/Native/ElmFire.js:233-241 | one `cancel` on the disconnect handle; success exactly on clean completion; a callback error goes through `fbTaskError`, a throw through `exTaskError` |
| Operations.ActionToFb | src/Native/ElmFire.js:247-255 | the SDK reads the encoding back as the same action (abort, remove, or set of a non-null value) |
| Operations.SetOfNullishValue | src/Native/ElmFire.js:247-255 | setting null reads back as remove, and setting undefined as abort |
| Operations.FbUpdateFunc | src/Native/ElmFire.js:247-255 | the previous value reaches Elm as a `Maybe`; abort becomes undefined, remove null, set its value |
| Operations.Transaction | src/Native/ElmFire.js:243-271 | one transaction call; on completion, the committed flag and `snapshot2elm` of the SDK's snapshot under `_transaction_` without a previous key; errors translated |
| Operations.Once | src/Native/ElmFire.js:427-447 | one read of the compiled query for its event type; the answer becomes `snapshot2elm` of the SDK's snapshot under `_once_`, with the SDK's previous key; a cancellation goes through `fbTaskError`, a throw through `exTaskError` |
| Operations.DisconnectWriteYieldsUnit | src/Native/ElmFire.js:152-167 | a completed disconnect write yields unit, and a completed direct write the handle |
| Subscriptions.SubscriptionIdInjective | src/Native/ElmFire.js:277-279 | different counter values give different subscription ids |
| Subscriptions.EmptyRegistryValid | src/Native/ElmFire.js:273-275 | the initial registry stores entries only under issued ids |
| Subscriptions.NextSubscriptionId | src/Native/ElmFire.js:277-279 | advances the counter by one and returns an id never issued before, which no stored entry uses |
| Subscriptions.Subscribe | src/Native/ElmFire.js:369-405 | a location failure changes nothing; otherwise a fresh id is stored with the handle, event type and sink before the listener call, other entries untouched; a throw fails the task but keeps the entry; validity is preserved |
| Subscriptions.Unsubscribe | src/Native/ElmFire.js:407-425 | an unknown id fails with `UnknownSubscription` and changes nothing; a known one is removed before `.off`, and a clean `.off` dispatches `Unsubscribed` to its sink |
| Subscriptions.BackendCancel | src/Native/ElmFire.js:381-388 | a backend cancel dispatches one translated `QueryError` to the sink and leaves the registry unchanged |
| Subscriptions.OnResponse | src/Native/ElmFire.js:374-380 | the subscriber's task is performed exactly when it returns `Just`, on the snapshot tagged with the subscription id |
| Subscriptions.UnsubscribeTwiceFails | src/Native/ElmFire.js:407-425 | a second unsubscribe of the same id fails with `UnknownSubscription` |
| Subscriptions.SubscribeThenUnsubscribe | src/Native/ElmFire.js:369-425 | subscribing then unsubscribing delivers exactly one `Unsubscribed` and restores the table; only the counter advances |
| Subscriptions.FailedListenKeepsEntry | src/Native/ElmFire.js:390-400 | a failed `.on` keeps the id consumed and the entry stored, so a later unsubscribe of it succeeds |
| Subscriptions.BackendCancelKeepsEntry | src/Native/ElmFire.js:381-388 | after a backend cancel, unsubscribe still finds the entry and dispatches `Unsubscribed` |
| Auth.Assign | src/Native/ElmFire/Auth.js:33 | assigning a property adds or overwrites that own key and keeps the others; "__proto__" instead goes to the inherited setter while it is reachable, and null (or an object with its own "__proto__") cuts the object off from it |
| Auth.ToObjectFrom | src/Native/ElmFire/Auth.js:27-37 | the loop's result: its keys are those already present plus those of the own assignments, and the last pair with a key decides that key's value |
| Auth.ToObject | src/Native/ElmFire/Auth.js:27-37 | the own keys are exactly those of the own assignments, each holding the value of the last pair with that key; "__proto__" is an own key exactly when a pair with it follows one that cut the object off from the setter |
| Auth.LaterPairOverrides | src/Native/ElmFire/Auth.js:27-37 | a later pair with the same key overrides an earlier one; for "__proto__" no key is left unless the first value was null (or an object with its own "__proto__"), in which case the second is an own key |
| Auth.ProtoPairCreatesNoOwnKey | src/Native/ElmFire/Auth.js:33 | a "__proto__" pair leaves the object without own properties, whatever its value |
| Auth.InheritedCodeEscapesAuthTable | src/Native/ElmFire/Auth.js:47-73 | as written, a code such as "hasOwnProperty" or "__proto__" yields an inherited member instead of a tag |
| Auth.AuthErrorTagOf | src/Native/ElmFire/Auth.js:47-73 | a table code maps to its tag, which maps back to the same code; `OtherAuthenticationError` is returned exactly for codes outside the table |
| Auth.AuthErrorTableRoundTrip | src/Native/ElmFire/Auth.js:47-73 | each of the seventeen named tags is reached from exactly its own code |
| Auth.AuthErrorTagMatchesAsWritten | src/Native/ElmFire/Auth.js:67-73 | off inherited member names, the corrected lookup agrees with the code as written |
| Auth.FbAuthTaskError | src/Native/ElmFire/Auth.js:67-73 | an `AuthError` keeping the error text; `OtherAuthenticationError` exactly for codes outside the table; otherwise the tag of the code |
| Auth.ExAuthTaskError | src/Native/ElmFire/Auth.js:79-81 | an exception becomes `AuthError OtherAuthenticationError` carrying its text |
| Auth.Specifics | src/Native/ElmFire/Auth.js:83-87 | the own property named by the provider when there is one, the empty object otherwise |
| Auth.Auth2Elm | src/Native/ElmFire/Auth.js:83-97 | uid, provider and token are passed through; specifics follow the provider rule |
| Auth.SpecificsFollowProvider | src/Native/ElmFire/Auth.js:83-97 | with provider "p", the record's specifics are the auth object's own "p" property, or the empty object when it has none |
| Auth.MaybeAuth2Elm | src/Native/ElmFire/Auth.js:99-105 | `Nothing` exactly for a missing auth, otherwise `Just` of the `auth2elm` record |
| Auth.AuthMethodsDistinct | src/Native/ElmFire/Auth.js:170-193 | only the two OAuth token identifications share an SDK method; the others each have their own |
| Auth.AuthArgs | src/Native/ElmFire/Auth.js:170-193 | the call's arguments per identification: `{email, password}`, the provider, the provider and token, or the provider and `toObject` of the credentials, then the options object last; none for an unrecognised tag |
| Auth.Authenticate | src/Native/ElmFire/Auth.js:157-198 | a known identification makes exactly one call on the handle, with the identification's own arguments and the options object last; an unrecognised tag fails without a call; the result is the converted auth, or a translated error |
| Auth.UidOf | src/Native/ElmFire/Auth.js:222 | for an absent or object response, `Just uid` exactly when the object has a non-null uid |
| Auth.UserMethodsDistinct | src/Native/ElmFire/Auth.js:226-243 | the five user operations call five different SDK methods |
| Auth.UserCall | src/Native/ElmFire/Auth.js:226-243 | each known operation calls its own method on the handle with one credential object holding exactly its fields under the SDK's names; an unrecognised one has no call |
| Auth.UserOp | src/Native/ElmFire/Auth.js:214-248 | a known operation makes exactly its own call and succeeds with the response's uid; an unrecognised tag fails without a call; both error origins are translated |
| Auth.SyncAuthCall | src/Native/ElmFire/Auth.js:111-155 | one synchronous call on the handle; a throw becomes an authentication failure, a return the converted result |
| Auth.SubscribeAuth | src/Native/ElmFire/Auth.js:111-124 | one `onAuth` call on the resolved handle; success exactly when it returns |
| Auth.UnsubscribeAuth | src/Native/ElmFire/Auth.js:126-140 | one `offAuth` call on the resolved handle; success exactly when it returns |
| Auth.GetAuth | src/Native/ElmFire/Auth.js:142-155 | one `getAuth` call on the resolved handle; on return, `maybeAuth2elm` of the SDK's answer (`Nothing` exactly when signed out); a throw becomes an authentication failure |

## Left out

- `unauthenticate` (src/Native/ElmFire/Auth.js:200-212) is not modelled. It calls `getRef`
  without a failure callback. On a resolution error, `getRef`'s catch block
  (src/Native/ElmFire.js:125-126) therefore calls `undefined`. The resulting `TypeError` escapes
  the catch block and the task function, so the task gets no outcome from the binding.
- `setOffline`, `serverTimeStamp`, `exportValue` and `toUrl` are not modelled: SDK plumbing with
  no logic of the binding's own.
- Date conversion of `expires` and the JSON deep copy of `auth` in `auth2elm` are not modelled:
  both are passed through unchanged.
- Currying (`F2`, `F3`), the module memoisation and `Task.asyncFunction` scheduling are not
  modelled.
  - Each operation is modelled as the single outcome its callback receives.
- `onAuthCallback` is not modelled: its dispatch into the runtime is pure plumbing around
  `maybeAuth2elm`, which is modelled.
- Numbers are integers. Floating-point values and priorities, and the precision limit of the
  `sNum` counter, are not modelled.
- `References.GetRefStep`: a child name the SDK accepts is appended to the path as one name.
  The SDK splits a name containing "/" into several levels, which the path model does not do.
  Rejected names are modelled: `Backend.childError` gives the exception text.
- The transaction's `throw` for an unknown action tag (src/Native/ElmFire.js:253) is not
  modelled. `Operations.Action` has only the three real constructors, so the branch is
  unreachable.
- `Values.Prop` is not modelled on the prototype chain: a property missing from an object reads
  as undefined. The chain is modelled explicitly where the binding reaches it: in the error
  tables, and in `toObject`'s assignment of "__proto__".
- `Auth.ToObject` keeps own properties only. A "__proto__" pair whose value is an object
  replaces the options object's prototype. The SDK could then read that object's properties as
  inherited options, and this is not modelled. Such an object value is taken to be a plain
  object inheriting `Object.prototype`.
- `Operations.Transaction`: the update function handed to the SDK (`fbUpdateFunc`,
  src/Native/ElmFire.js:247-255) is not part of the recorded `Transact` call. The SDK calls it
  an unknown number of times on server values; it is modelled on its own by
  `Operations.FbUpdateFunc`, and the committed flag and final snapshot are the SDK's answer.
- `Auth.UidOf` is stated only for the responses the SDK gives (nothing, or an object).
- Listener identity is modelled as the subscription id. `.off` in the SDK identifies the
  callback by reference.
- The push key is modelled as "-" followed by a decimal counter. The SDK's keys are
  time-ordered base-64 strings; the model keeps only the property that matters, that every
  `push` yields a new key.

## Findings

| source | as written | input that shows it | evidently intended | confidence | as-written member | corrected member |
|---|---|---|---|---|---|---|
| src/Native/ElmFire.js:55-67 | `fbErrorMap[code]` is a plain object lookup, so it also finds members inherited from `Object.prototype`; since those are functions and truthy, `if (! tag)` keeps them | a backend error with code "constructor" yields the tag value `{ctor: Object}` instead of an error tag | every code outside the three table entries yields `OtherFirebaseError` | not executed; needs the backend to report such a code | Errors.InheritedCodeEscapesFbTable | Errors.FbErrorTag |
| src/Native/ElmFire/Auth.js:47-73 | `fbAuthErrorMap[code]` has the same inherited-member lookup | an authentication error with code "hasOwnProperty" yields a function as the auth tag | every code outside the seventeen table entries yields `OtherAuthenticationError` | not executed; needs the backend to report such a code | Auth.InheritedCodeEscapesAuthTable | Auth.AuthErrorTagOf |

=== FILE: auth.dfy ===
/**
 * The authentication binding (src/Native/ElmFire/Auth.js): option objects built from pair
 * lists, the authentication error table, the Elm view of the backend's auth object, and the
 * outcome flow of the authentication operations.
 */
module Auth {
  import opened Elm
  import opened Values
  import opened Errors
  import opened References
  import opened Sdk
  import Decimal

  // ---- toObject -------------------------------------------------------------------------

  /**
   * The one property name whose assignment on a plain object can reach a setter: the one
   * inherited from `Object.prototype`, which replaces the object's prototype instead of
   * creating an own property.
   */
  const ProtoKey := "__proto__"

  /**
   * Whether a "__proto__" assignment that still reaches the inherited setter cuts the object
   * off from it: null leaves the object without a prototype, and an object holding its own
   * "__proto__" data property shadows the setter once it is the prototype. Any other value
   * keeps the setter reachable (a plain object still inherits it; a primitive changes nothing).
   */
  predicate RemovesSetter(key: string, value: JsValue) {
    key == ProtoKey && (value == Null || (value.Obj? && ProtoKey in value.props))
  }

  /** The own properties of a plain object under construction, and whether the setter is reachable. */
  datatype Building = Building(props: map<string, JsValue>, setter: bool)

  /** `obj[key] = value`, as far as the own properties and the setter's reachability go. */
  function Assign(obj: Building, key: string, value: JsValue): (r: Building)
    ensures key != ProtoKey || !obj.setter ==>
      r.props.Keys == obj.props.Keys + {key} && r.props[key] == value && r.setter == obj.setter
    ensures key == ProtoKey && obj.setter ==>
      r.props == obj.props && (r.setter <==> !RemovesSetter(key, value))
    ensures forall k :: k in obj.props && k != key ==> k in r.props && r.props[k] == obj.props[k]
  {
    if key == ProtoKey && obj.setter then Building(obj.props, !RemovesSetter(key, value))
    else Building(obj.props[key := value], obj.setter)
  }

  /** Before pair `i`, the setter is out of reach: it never was, or an earlier pair removed it. */
  ghost predicate SetterGone(setter: bool, pairs: seq<(string, JsValue)>, i: nat) {
    !setter || exists j :: 0 <= j < i && j < |pairs| && RemovesSetter(pairs[j].0, pairs[j].1)
  }

  /** Pair `i` creates (or overwrites) an own property. */
  ghost predicate OwnAssignment(setter: bool, pairs: seq<(string, JsValue)>, i: nat) {
    i < |pairs| && (pairs[i].0 != ProtoKey || SetterGone(setter, pairs, i))
  }

  /** The own keys a pair list creates. */
  ghost function KeysOf(setter: bool, pairs: seq<(string, JsValue)>): set<string> {
    set i | 0 <= i < |pairs| && OwnAssignment(setter, pairs, i) :: pairs[i].0
  }

  /** Pair `i` is the last one in the list with its key. */
  ghost predicate LastWithKey(pairs: seq<(string, JsValue)>, i: nat) {
    i < |pairs| && forall j :: i < j < |pairs| ==> pairs[j].0 != pairs[i].0
  }

  /** Dropping the first pair moves its effect on the setter into the starting state. */
  lemma {:induction false} SetterGoneShift(setter: bool, pairs: seq<(string, JsValue)>, i: nat)
    requires 0 < |pairs| && i < |pairs| - 1
    ensures SetterGone(setter, pairs, i + 1)
        <==> SetterGone(setter && !RemovesSetter(pairs[0].0, pairs[0].1), pairs[1..], i)
  {
    var rest := pairs[1..];
    if SetterGone(setter, pairs, i + 1) && setter && !RemovesSetter(pairs[0].0, pairs[0].1) {
      var j :| 0 <= j < i + 1 && j < |pairs| && RemovesSetter(pairs[j].0, pairs[j].1);
      assert j > 0;
      assert rest[j - 1] == pairs[j];
    }
    if SetterGone(setter && !RemovesSetter(pairs[0].0, pairs[0].1), rest, i) && setter
       && !RemovesSetter(pairs[0].0, pairs[0].1) {
      var j :| 0 <= j < i && j < |rest| && RemovesSetter(rest[j].0, rest[j].1);
      assert pairs[j + 1] == rest[j];
    }
  }

  /**
   * The `while` loop of `toObject`, continued from the object built so far: each pair is
   * assigned in list order, so the last own assignment to a key decides its value.
   */
  function ToObjectFrom(obj: Building, pairs: seq<(string, JsValue)>): (r: map<string, JsValue>)
    ensures r.Keys == obj.props.Keys + KeysOf(obj.setter, pairs)
    ensures forall i :: 0 <= i < |pairs| && LastWithKey(pairs, i) && OwnAssignment(obj.setter, pairs, i) ==>
      r[pairs[i].0] == pairs[i].1
    ensures forall k :: k in obj.props && k !in KeysOf(obj.setter, pairs) ==> r[k] == obj.props[k]
    decreases |pairs|
  {
    if |pairs| == 0 then obj.props
    else
      var rest := pairs[1..];
      var next := Assign(obj, pairs[0].0, pairs[0].1);
      var first := if OwnAssignment(obj.setter, pairs, 0) then {pairs[0].0} else {};
      var r := ToObjectFrom(next, rest);
      assert next.setter == (obj.setter && !RemovesSetter(pairs[0].0, pairs[0].1));
      assert forall i :: 0 <= i < |rest| ==>
        (OwnAssignment(obj.setter, pairs, i + 1) <==> OwnAssignment(next.setter, rest, i)) by {
        forall i | 0 <= i < |rest|
          ensures OwnAssignment(obj.setter, pairs, i + 1) <==> OwnAssignment(next.setter, rest, i)
        {
          SetterGoneShift(obj.setter, pairs, i);
          assert rest[i] == pairs[i + 1];
        }
      }
      assert KeysOf(obj.setter, pairs) == first + KeysOf(next.setter, rest) by {
        forall k | k in KeysOf(obj.setter, pairs) ensures k in first + KeysOf(next.setter, rest) {
          var i :| 0 <= i < |pairs| && OwnAssignment(obj.setter, pairs, i) && pairs[i].0 == k;
          if i > 0 { assert rest[i - 1].0 == k; }
        }
        forall k | k in KeysOf(next.setter, rest) ensures k in KeysOf(obj.setter, pairs) {
          var i :| 0 <= i < |rest| && OwnAssignment(next.setter, rest, i) && rest[i].0 == k;
          assert pairs[i + 1].0 == k;
        }
      }
      forall i | 0 <= i < |pairs| && LastWithKey(pairs, i) && OwnAssignment(obj.setter, pairs, i)
        ensures r[pairs[i].0] == pairs[i].1
      {
        if i == 0 {
          forall j | 0 <= j < |rest| ensures rest[j].0 != pairs[0].0 {
            assert rest[j] == pairs[j + 1];
          }
        } else {
          assert LastWithKey(rest, i - 1) by {
            forall j | i - 1 < j < |rest| ensures rest[j].0 != rest[i - 1].0 {
              assert rest[j] == pairs[j + 1];
            }
          }
          assert rest[i - 1] == pairs[i];
        }
      }
      r
  }

  /**
   * `toObject`: an object whose own keys are exactly the first components of the own
   * assignments, each holding the second component of the LAST pair with that key.
   * "__proto__" is an own key exactly when some pair before one with that key cut the
   * object off from the inherited setter.
   */
  function ToObject(pairs: seq<(string, JsValue)>): (obj: map<string, JsValue>)
    ensures obj.Keys == KeysOf(true, pairs)
    ensures ProtoKey in obj <==>
      exists i, j :: 0 <= j < i < |pairs| && RemovesSetter(pairs[j].0, pairs[j].1) && pairs[i].0 == ProtoKey
    ensures forall i :: 0 <= i < |pairs| && LastWithKey(pairs, i) && OwnAssignment(true, pairs, i) ==>
      obj[pairs[i].0] == pairs[i].1
  {
    ToObjectFrom(Building(map[], true), pairs)
  }

  /**
   * A later pair with the same key overrides an earlier one. For "__proto__" nothing is left,
   * unless the first pair cut the object off from the setter: then the second is an own key.
   */
  lemma LaterPairOverrides(k: string, v1: JsValue, v2: JsValue)
    ensures ToObject([(k, v1), (k, v2)])
         == if k != ProtoKey || RemovesSetter(k, v1) then map[k := v2] else map[]
  {
    var pairs := [(k, v1), (k, v2)];
    assert LastWithKey(pairs, 1);
    assert pairs[1].0 == k;
    assert KeysOf(true, pairs) <= {k} by {
      assert forall i :: 0 <= i < |pairs| ==> pairs[i].0 == k;
    }
    if k != ProtoKey || RemovesSetter(k, v1) {
      assert OwnAssignment(true, pairs, 1);
    }
  }

  /** A single "__proto__" pair leaves no own property behind, whatever its value. */
  lemma ProtoPairCreatesNoOwnKey(v: JsValue)
    ensures ToObject([(ProtoKey, v)]) == map[]
  {
    var pairs := [(ProtoKey, v)];
    assert KeysOf(true, pairs) == {} by {
      assert forall i :: 0 <= i < |pairs| ==> pairs[i].0 == ProtoKey;
    }
  }

  // ---- error translation ----------------------------------------------------------------

  /** `fbAuthErrorMap`: the seventeen authentication error codes with a tag of their own. */
  const FbAuthErrorMap: map<string, AuthErrorTag> := map[
    "AUTHENTICATION_DISABLED" := AuthenticationDisabled,
    "EMAIL_TAKEN" := EmailTaken,
    "INVALID_ARGUMENTS" := InvalidArguments,
    "INVALID_CONFIGURATION" := InvalidConfiguration,
    "INVALID_CREDENTIALS" := InvalidCredentials,
    "INVALID_EMAIL" := InvalidEmail,
    "INVALID_ORIGIN" := InvalidOrigin,
    "INVALID_PASSWORD" := InvalidPassword,
    "INVALID_PROVIDER" := InvalidProvider,
    "INVALID_TOKEN" := InvalidToken,
    "INVALID_USER" := InvalidUser,
    "NETWORK_ERROR" := NetworkError,
    "PROVIDER_ERROR" := ProviderError,
    "TRANSPORT_UNAVAILABLE" := TransportUnavailable,
    "UNKNOWN_ERROR" := UnknownError,
    "USER_CANCELLED" := UserCancelled,
    "USER_DENIED" := UserDenied
  ]

  /** The backend code of each named authentication tag; the inverse of the table. */
  function AuthErrorCode(tag: AuthErrorTag): Maybe<string> {
    match tag
    case AuthenticationDisabled => Just("AUTHENTICATION_DISABLED")
    case EmailTaken => Just("EMAIL_TAKEN")
    case InvalidArguments => Just("INVALID_ARGUMENTS")
    case InvalidConfiguration => Just("INVALID_CONFIGURATION")
    case InvalidCredentials => Just("INVALID_CREDENTIALS")
    case InvalidEmail => Just("INVALID_EMAIL")
    case InvalidOrigin => Just("INVALID_ORIGIN")
    case InvalidPassword => Just("INVALID_PASSWORD")
    case InvalidProvider => Just("INVALID_PROVIDER")
    case InvalidToken => Just("INVALID_TOKEN")
    case InvalidUser => Just("INVALID_USER")
    case NetworkError => Just("NETWORK_ERROR")
    case ProviderError => Just("PROVIDER_ERROR")
    case TransportUnavailable => Just("TRANSPORT_UNAVAILABLE")
    case UnknownError => Just("UNKNOWN_ERROR")
    case UserCancelled => Just("USER_CANCELLED")
    case UserDenied => Just("USER_DENIED")
    case OtherAuthenticationError => Nothing
  }

  /** `fbAuthTaskError`'s tag as written (the lookup goes through the prototype chain). */
  function AuthErrorTagAsWritten(code: string): TagAsWritten<AuthErrorTag> {
    TagOrFallbackAsWritten(FbAuthErrorMap, code, OtherAuthenticationError)
  }

  /** An authentication error code named like an inherited member escapes the taxonomy. */
  lemma InheritedCodeEscapesAuthTable()
    ensures AuthErrorTagAsWritten("hasOwnProperty") == InheritedMember("hasOwnProperty")
    ensures AuthErrorTagAsWritten("__proto__").InheritedMember?
  {
  }

  /** The tag of an authentication error code, looking at the table's own entries only. */
  function AuthErrorTagOf(code: string): (tag: AuthErrorTag)
    ensures code in FbAuthErrorMap ==> tag == FbAuthErrorMap[code] && AuthErrorCode(tag) == Just(code)
    ensures code !in FbAuthErrorMap <==> tag == OtherAuthenticationError
  {
    if code in FbAuthErrorMap then FbAuthErrorMap[code] else OtherAuthenticationError
  }

  /** Each of the seventeen named tags is reached from exactly its own code. */
  lemma AuthErrorTableRoundTrip(tag: AuthErrorTag)
    requires tag != OtherAuthenticationError
    ensures AuthErrorCode(tag).Just? && AuthErrorTagOf(AuthErrorCode(tag).value) == tag
  {
  }

  lemma AuthErrorTagMatchesAsWritten(code: string)
    requires code !in InheritedNames
    ensures AuthErrorTagAsWritten(code) == Tag(AuthErrorTagOf(code))
  {
  }

  /** `fbAuthTaskError`: wrapped in `AuthError`, the backend's text kept. */
  function FbAuthTaskError(e: FbError): (r: Error)
    ensures r.Error? && r.tag.AuthError? && r.description == e.text
    ensures r.tag.auth == OtherAuthenticationError <==> e.code !in FbAuthErrorMap
    ensures e.code in FbAuthErrorMap ==> AuthErrorCode(r.tag.auth) == Just(e.code)
  {
    Error(AuthError(AuthErrorTagOf(e.code)), e.text)
  }

  /** `exAuthTaskFail`'s error: an exception is an `OtherAuthenticationError`. */
  function ExAuthTaskError(text: string): (r: Error)
    ensures r.Error? && r.tag == AuthError(OtherAuthenticationError) && r.description == text
  {
    Error(AuthError(OtherAuthenticationError), text)
  }

  // ---- the auth object ------------------------------------------------------------------

  /** The backend's auth object, as its own properties. */
  type FbAuth = map<string, JsValue>

  /** `fbAuth.name`: an absent property reads as undefined. */
  function Get(a: FbAuth, name: string): JsValue {
    if name in a then a[name] else Undefined
  }

  /** The string a value becomes when used as a property name. */
  function PropertyKey(v: JsValue): string {
    match v
    case Undefined => "undefined"
    case Null => "null"
    case Bool(b) => if b then "true" else "false"
    case Num(n) => if n < 0 then "-" + Decimal.NatToString(-n) else Decimal.NatToString(n)
    case Str(s) => s
    case Obj(_) => "[object Object]"
  }

  /** The Elm auth record; `expires` and `auth` are passed through unconverted. */
  datatype Auth = Auth(uid: JsValue, provider: JsValue, token: JsValue, expires: JsValue, auth: JsValue,
                       specifics: JsValue)

  /**
   * The `specifics` rule of `auth2elm`: the property named by the provider when the auth
   * object has it as its own, the empty object otherwise.
   */
  function Specifics(a: FbAuth): (s: JsValue)
    ensures Get(a, "provider").Str? && Get(a, "provider").s in a ==> s == a[Get(a, "provider").s]
    ensures PropertyKey(Get(a, "provider")) !in a ==> s == Obj(map[])
  {
    var name := PropertyKey(Get(a, "provider"));
    if name in a then a[name] else Obj(map[])
  }

  /** `auth2elm`. */
  function Auth2Elm(a: FbAuth): (r: Auth)
    ensures r.uid == Get(a, "uid") && r.provider == Get(a, "provider") && r.token == Get(a, "token")
    ensures r.specifics == Specifics(a)
  {
    Auth(Get(a, "uid"), Get(a, "provider"), Get(a, "token"), Get(a, "expires"), Get(a, "auth"), Specifics(a))
  }

  /**
   * The provider names where the provider-specific data sits: with provider "p", `specifics`
   * is the auth object's own property "p", or the empty object when it has none.
   */
  lemma SpecificsFollowProvider(a: FbAuth, p: string)
    requires Get(a, "provider") == Str(p)
    ensures p in a ==> Auth2Elm(a).specifics == a[p]
    ensures p !in a ==> Auth2Elm(a).specifics == Obj(map[])
  {
  }

  /** `maybeAuth2elm`: a null auth (signed out) is `Nothing`. */
  function MaybeAuth2Elm(a: Maybe<FbAuth>): (r: Maybe<Auth>)
    ensures r.Nothing? <==> a.Nothing?
    ensures a.Just? ==> r.value == Auth2Elm(a.value)
    ensures a.Just? ==> r.value.uid == Get(a.value, "uid") && r.value.specifics == Specifics(a.value)
  {
    match a
    case Nothing => Nothing
    case Just(fb) => Just(Auth2Elm(fb))
  }

  // ---- operations -----------------------------------------------------------------------

  datatype Identification =
    | Anonymous
    | Password(email: string, password: string)
    | OAuthPopup(provider: string)
    | OAuthRedirect(provider: string)
    | OAuthAccessToken(provider: string, token: string)
    | OAuthCredentials(provider: string, credentials: seq<(string, JsValue)>)
    | CustomToken(token: string)
    | UnrecognisedIdentification(ctor: string)

  const BadIdentificationTag := "Bad identification tag." + PleaseReportThis

  /** The SDK method each identification calls. */
  function AuthMethod(id: Identification): Maybe<string> {
    match id
    case Anonymous => Just("authAnonymously")
    case Password(_, _) => Just("authWithPassword")
    case OAuthPopup(_) => Just("authWithOAuthPopup")
    case OAuthRedirect(_) => Just("authWithOAuthRedirect")
    case OAuthAccessToken(_, _) => Just("authWithOAuthToken")
    case OAuthCredentials(_, _) => Just("authWithOAuthToken")
    case CustomToken(_) => Just("authWithCustomToken")
    case UnrecognisedIdentification(_) => Nothing
  }

  /** Only the two OAuth token identifications share an SDK method. */
  lemma AuthMethodsDistinct(a: Identification, b: Identification)
    requires AuthMethod(a).Just? && AuthMethod(a) == AuthMethod(b)
    ensures a.OAuthAccessToken? || a.OAuthCredentials? ==> b.OAuthAccessToken? || b.OAuthCredentials?
    ensures !(a.OAuthAccessToken? || a.OAuthCredentials?) ==>
      && a.Anonymous? == b.Anonymous? && a.Password? == b.Password? && a.OAuthPopup? == b.OAuthPopup?
      && a.OAuthRedirect? == b.OAuthRedirect? && a.CustomToken? == b.CustomToken?
  {
  }

  /** The arguments of the SDK call, the completion callback left out, the options last. */
  function AuthArgs(id: Identification, options: map<string, JsValue>): (args: seq<JsValue>)
    ensures args == [] <==> id.UnrecognisedIdentification?
    ensures args != [] ==> args[|args| - 1] == Obj(options)
    ensures id.Anonymous? ==> |args| == 1
    ensures id.Password? ==>
      |args| == 2 && args[0] == Obj(map["email" := Str(id.email), "password" := Str(id.password)])
    ensures id.OAuthPopup? || id.OAuthRedirect? ==> |args| == 2 && args[0] == Str(id.provider)
    ensures id.OAuthAccessToken? ==> |args| == 3 && args[0] == Str(id.provider) && args[1] == Str(id.token)
    ensures id.OAuthCredentials? ==>
      |args| == 3 && args[0] == Str(id.provider) && args[1] == Obj(ToObject(id.credentials))
    ensures id.CustomToken? ==> |args| == 2 && args[0] == Str(id.token)
  {
    match id
    case Anonymous => [Obj(options)]
    case Password(e, p) => [Obj(map["email" := Str(e), "password" := Str(p)]), Obj(options)]
    case OAuthPopup(provider) => [Str(provider), Obj(options)]
    case OAuthRedirect(provider) => [Str(provider), Obj(options)]
    case OAuthAccessToken(provider, token) => [Str(provider), Str(token), Obj(options)]
    case OAuthCredentials(provider, cs) => [Str(provider), Obj(ToObject(cs)), Obj(options)]
    case CustomToken(token) => [Str(token), Obj(options)]
    case UnrecognisedIdentification(_) => []
  }

  /**
   * `authenticate`: every known identification makes exactly one SDK call, with the options
   * object built from the option list; an unrecognised tag throws inside the `try` and fails
   * with `OtherAuthenticationError` without any call.
   */
  function Authenticate(backend: Backend, keys: nat, loc: Location, options: seq<(string, JsValue)>,
                        id: Identification, reply: Reply<FbAuth>): (r: Run<Auth>)
    ensures ShortCircuits(backend, loc, keys, r)
    ensures var resolved := GetRef(backend, loc, keys);
      resolved.ref.Success? ==>
        && r.keys == resolved.keys
        && (id.UnrecognisedIdentification? ==>
              r.calls == [] && r.outcome == Fail(ExAuthTaskError(BadIdentificationTag)))
        && (!id.UnrecognisedIdentification? ==>
              && |r.calls| == 1
              && r.calls[0].AuthCall? && r.calls[0].path == resolved.ref.value
              && Just(r.calls[0].name) == AuthMethod(id)
              && r.calls[0].args == AuthArgs(id, ToObject(options))
              && |r.calls[0].args| >= 1 && r.calls[0].args[|r.calls[0].args| - 1] == Obj(ToObject(options))
              && (r.outcome.Success? <==> reply.Done?)
              && (reply.Done? ==> r.outcome.value == Auth2Elm(reply.result))
              && (reply.Failed? ==> r.outcome.error == FbAuthTaskError(reply.error))
              && (reply.Threw? ==> r.outcome.error == ExAuthTaskError(reply.text)))
  {
    var resolved := GetRef(backend, loc, keys);
    match resolved.ref
    case Fail(e) => Run(Fail(e), [], resolved.keys)
    case Success(path) =>
      var opts := ToObject(options);
      match AuthMethod(id)
      case Nothing => Run(Fail(ExAuthTaskError(BadIdentificationTag)), [], resolved.keys)
      case Just(name) =>
        var outcome := match reply
          case Threw(text) => Fail(ExAuthTaskError(text))
          case Failed(e) => Fail(FbAuthTaskError(e))
          case Done(a) => Success(Auth2Elm(a));
        Run(outcome, [AuthCall(path, name, AuthArgs(id, opts))], resolved.keys)
  }

  datatype UserOperation =
    | CreateUser(email: string, password: string)
    | RemoveUser(email: string, password: string)
    | ChangeEmail(oldEmail: string, password: string, newEmail: string)
    | ChangePassword(email: string, oldPassword: string, newPassword: string)
    | ResetPassword(email: string)
    | UnrecognisedOperation(ctor: string)

  const BadUserOperationTag := "Bad user operation tag." + PleaseReportThis

  /** The SDK method each user operation calls. */
  function UserMethod(op: UserOperation): Maybe<string> {
    match op
    case CreateUser(_, _) => Just("createUser")
    case RemoveUser(_, _) => Just("removeUser")
    case ChangeEmail(_, _, _) => Just("changeEmail")
    case ChangePassword(_, _, _) => Just("changePassword")
    case ResetPassword(_) => Just("resetPassword")
    case UnrecognisedOperation(_) => Nothing
  }

  /** The five user operations call five different SDK methods. */
  lemma UserMethodsDistinct(a: UserOperation, b: UserOperation)
    requires UserMethod(a).Just? && UserMethod(a) == UserMethod(b)
    ensures a.CreateUser? == b.CreateUser? && a.RemoveUser? == b.RemoveUser?
    ensures a.ChangeEmail? == b.ChangeEmail? && a.ChangePassword? == b.ChangePassword?
    ensures a.ResetPassword? == b.ResetPassword?
  {
  }

  /**
   * The SDK call for a user operation: its method on the handle, with one credential object
   * holding the operation's fields under the SDK's names.
   */
  function UserCall(path: Path, op: UserOperation): (call: Maybe<SdkCall>)
    ensures call.Nothing? <==> op.UnrecognisedOperation?
    ensures call.Just? ==>
      && call.value.AuthCall? && call.value.path == path && Just(call.value.name) == UserMethod(op)
      && |call.value.args| == 1 && call.value.args[0].Obj?
    ensures call.Just? ==> var creds := call.value.args[0].props;
      && (op.CreateUser? || op.RemoveUser? ==> creds == map["email" := Str(op.email), "password" := Str(op.password)])
      && (op.ChangeEmail? ==>
            creds == map["oldEmail" := Str(op.oldEmail), "password" := Str(op.password), "newEmail" := Str(op.newEmail)])
      && (op.ChangePassword? ==>
            creds == map["email" := Str(op.email), "oldPassword" := Str(op.oldPassword), "newPassword" := Str(op.newPassword)])
      && (op.ResetPassword? ==> creds == map["email" := Str(op.email)])
  {
    match op
    case CreateUser(e, p) =>
      Just(AuthCall(path, "createUser", [Obj(map["email" := Str(e), "password" := Str(p)])]))
    case RemoveUser(e, p) =>
      Just(AuthCall(path, "removeUser", [Obj(map["email" := Str(e), "password" := Str(p)])]))
    case ChangeEmail(oldEmail, p, newEmail) =>
      Just(AuthCall(path, "changeEmail",
        [Obj(map["oldEmail" := Str(oldEmail), "password" := Str(p), "newEmail" := Str(newEmail)])]))
    case ChangePassword(e, oldPassword, newPassword) =>
      Just(AuthCall(path, "changePassword",
        [Obj(map["email" := Str(e), "oldPassword" := Str(oldPassword), "newPassword" := Str(newPassword)])]))
    case ResetPassword(e) =>
      Just(AuthCall(path, "resetPassword", [Obj(map["email" := Str(e)])]))
    case UnrecognisedOperation(_) => Nothing
  }

  /**
   * `asMaybe(res && res.uid)`: for the answers the SDK gives (nothing, or an object) the
   * result is `Just uid` exactly when the object carries a non-null uid.
   */
  function UidOf(res: JsValue): (r: Maybe<JsValue>)
    ensures Nullish(res) || res.Obj? ==>
      (r.Just? <==> res.Obj? && "uid" in res.props && !Nullish(res.props["uid"]))
    ensures r.Just? && res.Obj? ==> r.value == res.props["uid"]
  {
    AsMaybe(JsAnd(res, Prop(res, "uid")))
  }

  /**
   * `userOperation`: a known operation makes one SDK call and succeeds with the uid found in
   * the response; an unrecognised tag fails with `OtherAuthenticationError` without a call.
   */
  function UserOp(backend: Backend, keys: nat, loc: Location, op: UserOperation,
                  reply: Reply<JsValue>): (r: Run<Maybe<JsValue>>)
    ensures ShortCircuits(backend, loc, keys, r)
    ensures var resolved := GetRef(backend, loc, keys);
      resolved.ref.Success? ==>
        && (op.UnrecognisedOperation? ==>
              r.calls == [] && r.outcome == Fail(ExAuthTaskError(BadUserOperationTag)))
        && (!op.UnrecognisedOperation? ==>
              && |r.calls| == 1 && r.calls[0].AuthCall? && r.calls[0].path == resolved.ref.value
              && Just(r.calls[0]) == UserCall(resolved.ref.value, op)
              && Just(r.calls[0].name) == UserMethod(op)
              && (r.outcome.Success? <==> reply.Done?)
              && (reply.Done? ==> r.outcome.value == UidOf(reply.result))
              && (reply.Failed? ==> r.outcome.error == FbAuthTaskError(reply.error))
              && (reply.Threw? ==> r.outcome.error == ExAuthTaskError(reply.text)))
  {
    var resolved := GetRef(backend, loc, keys);
    match resolved.ref
    case Fail(e) => Run(Fail(e), [], resolved.keys)
    case Success(path) =>
      match UserCall(path, op)
      case Nothing => Run(Fail(ExAuthTaskError(BadUserOperationTag)), [], resolved.keys)
      case Just(call) =>
        var outcome := match reply
          case Threw(text) => Fail(ExAuthTaskError(text))
          case Failed(e) => Fail(FbAuthTaskError(e))
          case Done(res) => Success(UidOf(res));
        Run(outcome, [call], resolved.keys)
  }

  /**
   * The shape shared by `subscribeAuth`, `unsubscribeAuth` and `getAuth`: a synchronous SDK
   * call whose exception becomes an authentication failure.
   */
  function SyncAuthCall<T, U>(backend: Backend, keys: nat, loc: Location, name: string,
                              reply: Sync<T>, convert: T -> U): (r: Run<U>)
    ensures ShortCircuits(backend, loc, keys, r)
    ensures var resolved := GetRef(backend, loc, keys);
      resolved.ref.Success? ==>
        && r.calls == [AuthCall(resolved.ref.value, name, [])]
        && (reply.Raised? ==> r.outcome == Fail(ExAuthTaskError(reply.text)))
        && (reply.Returned? ==> r.outcome == Success(convert(reply.result)))
  {
    var resolved := GetRef(backend, loc, keys);
    match resolved.ref
    case Fail(e) => Run(Fail(e), [], resolved.keys)
    case Success(path) =>
      var outcome := match reply
        case Raised(text) => Fail(ExAuthTaskError(text))
        case Returned(v) => Success(convert(v));
      Run(outcome, [AuthCall(path, name, [])], resolved.keys)
  }

  /** `subscribeAuth`: registers the auth listener; unit on success. */
  function SubscribeAuth(backend: Backend, keys: nat, loc: Location, reply: Sync<()>): (r: Run<()>)
    ensures ShortCircuits(backend, loc, keys, r)
    ensures var resolved := GetRef(backend, loc, keys);
      resolved.ref.Success? ==>
      && r.calls == [AuthCall(resolved.ref.value, "onAuth", [])]
      && (r.outcome.Success? <==> reply.Returned?)
      && (reply.Raised? ==> r.outcome.error == ExAuthTaskError(reply.text))
  {
    SyncAuthCall(backend, keys, loc, "onAuth", reply, (u: ()) => u)
  }

  /** `unsubscribeAuth`: removes the auth listener; unit on success. */
  function UnsubscribeAuth(backend: Backend, keys: nat, loc: Location, reply: Sync<()>): (r: Run<()>)
    ensures ShortCircuits(backend, loc, keys, r)
    ensures var resolved := GetRef(backend, loc, keys);
      resolved.ref.Success? ==>
      && r.calls == [AuthCall(resolved.ref.value, "offAuth", [])]
      && (r.outcome.Success? <==> reply.Returned?)
      && (reply.Raised? ==> r.outcome.error == ExAuthTaskError(reply.text))
  {
    SyncAuthCall(backend, keys, loc, "offAuth", reply, (u: ()) => u)
  }

  /** `getAuth`: the current auth, `Nothing` when signed out. */
  function GetAuth(backend: Backend, keys: nat, loc: Location, reply: Sync<Maybe<FbAuth>>): (r: Run<Maybe<Auth>>)
    ensures ShortCircuits(backend, loc, keys, r)
    ensures var resolved := GetRef(backend, loc, keys);
      resolved.ref.Success? ==>
      && r.calls == [AuthCall(resolved.ref.value, "getAuth", [])]
      && (r.outcome.Success? <==> reply.Returned?)
      && (reply.Returned? ==> (r.outcome.value.Nothing? <==> reply.result.Nothing?))
      && (reply.Returned? ==> r.outcome.value == MaybeAuth2Elm(reply.result))
      && (reply.Returned? && reply.result.Just? ==> r.outcome.value.value.uid == Get(reply.result.value, "uid"))
      && (reply.Raised? ==> r.outcome.error == ExAuthTaskError(reply.text))
  {
    SyncAuthCall(backend, keys, loc, "getAuth", reply, MaybeAuth2Elm)
  }
}

=== FILE: decimal.dfy ===
/** Decimal rendering of natural numbers, as JavaScript's `'q' + n` produces for integers. */
module Decimal {

  function DigitChar(d: nat): (c: char)
    requires d < 10
    ensures '0' <= c <= '9'
  {
    (48 + d) as char
  }

  /** The decimal digits of `n`, most significant first, without leading zeros. */
  function NatToString(n: nat): (s: string)
    ensures |s| >= 1
    ensures n >= 10 ==> |s| >= 2
    ensures n < 10 ==> |s| == 1
    ensures forall i :: 0 <= i < |s| ==> '0' <= s[i] <= '9'
  {
    if n < 10 then [DigitChar(n)] else NatToString(n / 10) + [DigitChar(n % 10)]
  }

  /** Different numbers render differently, so counters never repeat a rendered id. */
  lemma {:induction false} NatToStringInjective(a: nat, b: nat)
    requires NatToString(a) == NatToString(b)
    ensures a == b
  {
    var s := NatToString(a);
    if a < 10 && b < 10 {
      assert s[0] == DigitChar(a) && s[0] == DigitChar(b);
    } else if a < 10 || b < 10 {
      // one rendering has a single digit, the other at least two
      assert false;
    } else {
      var pa, pb := NatToString(a / 10), NatToString(b / 10);
      assert s == pa + [DigitChar(a % 10)];
      assert s == pb + [DigitChar(b % 10)];
      assert s[|s| - 1] == DigitChar(a % 10) == DigitChar(b % 10);
      assert pa == s[..|s| - 1] == pb;
      NatToStringInjective(a / 10, b / 10);
    }
  }
}

=== FILE: elm.dfy ===
/** The two Elm-side wrappers the binding produces: `Maybe` values and task outcomes. */
module Elm {

  /** Elm's `Maybe`, built by the binding as `{ctor: 'Nothing'}` or `{ctor: 'Just', _0: v}`. */
  datatype Maybe<+T> = Nothing | Just(value: T)

  /** The outcome a task callback receives: `Task.succeed(v)` or `Task.fail(e)`. */
  datatype Result<+T, +E> = Success(value: T) | Fail(error: E)
}

=== FILE: errors.dfy ===
/**
 * The error taxonomy handed to Elm and the translation of backend errors and thrown
 * exceptions into it (src/Native/ElmFire.js:47-79; the authentication tags of
 * src/Native/ElmFire/Auth.js:39-45 share the record shape).
 */
module Errors {
  import opened Elm

  const PleaseReportThis := " Should not happen, please report this as a bug in ElmFire!"

  datatype AuthErrorTag =
    | AuthenticationDisabled
    | EmailTaken
    | InvalidArguments
    | InvalidConfiguration
    | InvalidCredentials
    | InvalidEmail
    | InvalidOrigin
    | InvalidPassword
    | InvalidProvider
    | InvalidToken
    | InvalidUser
    | NetworkError
    | ProviderError
    | TransportUnavailable
    | UnknownError
    | UserCancelled
    | UserDenied
    | OtherAuthenticationError

  datatype ErrorTag =
    | LocationError
    | PermissionError
    | UnavailableError
    | TooBigError
    | OtherFirebaseError
    | AuthError(auth: AuthErrorTag)

  /**
   * What a failed task carries: the `{tag, description}` record built by `error2elm` and
   * `authError2elm`, or the bare `{ctor: 'UnknownSubscription'}` that `unsubscribe` fails with.
   */
  datatype Error = Error(tag: ErrorTag, description: string) | UnknownSubscription

  /** A backend-reported error: its `code` property and its `toString()` text. */
  datatype FbError = FbError(code: string, text: string)

  /** `fbErrorMap`: the backend codes with a tag of their own. */
  const FbErrorMap: map<string, ErrorTag> := map[
    "PERMISSION_DENIED" := PermissionError,
    "UNAVAILABLE" := UnavailableError,
    "TOO_BIG" := TooBigError
  ]

  /**
   * The names every JavaScript object literal inherits from `Object.prototype`; reading one
   * of them from a lookup table yields a function (or the prototype), which is truthy.
   */
  const InheritedNames: set<string> := {
    "constructor", "__defineGetter__", "__defineSetter__", "hasOwnProperty",
    "__lookupGetter__", "__lookupSetter__", "isPrototypeOf", "propertyIsEnumerable",
    "toString", "valueOf", "__proto__", "toLocaleString"
  }

  /** What `var tag = table[code]; if (! tag) { tag = fallback; }` leaves in `tag`. */
  datatype TagAsWritten<T> = Tag(tag: T) | InheritedMember(name: string)

  /**
   * The table lookup as the source writes it: the lookup goes through the prototype chain,
   * so an inherited member name is found, is truthy and is used as the tag.
   */
  function TagOrFallbackAsWritten<T>(table: map<string, T>, code: string, fallback: T): (r: TagAsWritten<T>)
    ensures code in table ==> r == Tag(table[code])
    ensures code !in table && code in InheritedNames ==> r == InheritedMember(code)
    ensures code !in table && code !in InheritedNames ==> r == Tag(fallback)
  {
    if code in table then Tag(table[code])
    else if code in InheritedNames then InheritedMember(code)
    else Tag(fallback)
  }

  /** `fbTaskError`'s tag as written. */
  function FbErrorTagAsWritten(code: string): TagAsWritten<ErrorTag> {
    TagOrFallbackAsWritten(FbErrorMap, code, OtherFirebaseError)
  }

  /** An error code named like an inherited member escapes the taxonomy. */
  lemma InheritedCodeEscapesFbTable()
    ensures FbErrorTagAsWritten("constructor") == InheritedMember("constructor")
    ensures FbErrorTagAsWritten("toString").InheritedMember?
  {
  }

  /** The tag of a backend code, looking at the table's own entries only. */
  function FbErrorTag(code: string): (tag: ErrorTag)
    ensures tag == PermissionError <==> code == "PERMISSION_DENIED"
    ensures tag == UnavailableError <==> code == "UNAVAILABLE"
    ensures tag == TooBigError <==> code == "TOO_BIG"
    ensures tag == OtherFirebaseError <==> code !in FbErrorMap
    ensures !tag.LocationError? && !tag.AuthError?
  {
    if code in FbErrorMap then FbErrorMap[code] else OtherFirebaseError
  }

  /** On every code that is not an inherited member name the two lookups agree. */
  lemma FbErrorTagMatchesAsWritten(code: string)
    requires code !in InheritedNames
    ensures FbErrorTagAsWritten(code) == Tag(FbErrorTag(code))
  {
  }

  /** `fbTaskError`: tag from the table, the error's own text kept as the description. */
  function FbTaskError(e: FbError): (r: Error)
    ensures r.Error? && r.description == e.text
    ensures r.tag in {PermissionError, UnavailableError, TooBigError, OtherFirebaseError}
    ensures r.tag == OtherFirebaseError <==> e.code !in FbErrorMap
    ensures e.code in FbErrorMap ==> r.tag == FbErrorMap[e.code]
  {
    Error(FbErrorTag(e.code), e.text)
  }

  /** `exTaskError`: an exception thrown while starting a call. */
  function ExTaskError(text: string): (r: Error)
    ensures r.Error? && r.tag == OtherFirebaseError && r.description == text
  {
    Error(OtherFirebaseError, text)
  }

  /** A thrown exception reads exactly like a backend error whose code has no table entry. */
  lemma ExceptionReadsAsUnknownCode(code: string, text: string)
    requires code !in FbErrorMap
    ensures ExTaskError(text) == FbTaskError(FbError(code, text))
  {
  }

  /** The failure `getRef` reports when a location cannot be resolved. */
  function LocationFailure(text: string): (r: Error)
    ensures r.Error? && r.tag == LocationError && r.description == text
  {
    Error(LocationError, text)
  }
}

=== FILE: operations.dfy ===
/**
 * One-shot operations (src/Native/ElmFire.js:81-89, 143-271, 427-447): each resolves its
 * location, makes one SDK call, and shapes the SDK's answer into a task outcome.
 */
module Operations {
  import opened Elm
  import opened Values
  import opened Errors
  import opened References
  import opened Queries
  import opened Snapshots
  import opened Sdk

  /**
   * `onCompleteCallbackRef` and the `try`/`catch` around the call: a throw while starting
   * becomes `exTaskFail`, an error callback `fbTaskFail`, a clean completion `res`.
   */
  function Settle<T>(reply: Reply<()>, res: T): (r: Result<T, Error>)
    ensures r.Success? <==> reply.Done?
    ensures r.Success? ==> r.value == res
    ensures reply.Failed? ==> r.error == FbTaskError(reply.error)
    ensures reply.Threw? ==> r.error == ExTaskError(reply.text)
  {
    match reply
    case Threw(text) => Fail(ExTaskError(text))
    case Failed(e) => Fail(FbTaskError(e))
    case Done(_) => Success(res)
  }

  /** `open`: the resolved handle, no SDK call. */
  function Open(backend: Backend, loc: Location, keys: nat): (r: Run<Path>)
    ensures ShortCircuits(backend, loc, keys, r)
    ensures r.calls == []
    ensures r.outcome.Success? <==> GetRefStep(backend, loc, keys).ref.Success?
    ensures r.outcome.Success? ==> r.outcome.value == GetRefStep(backend, loc, keys).ref.value
  {
    var resolved := GetRef(backend, loc, keys);
    Run(resolved.ref, [], resolved.keys)
  }

  /** The four writes that take an `onDisconnect` switch. */
  datatype Mutation =
    | SetValue(value: JsValue)
    | SetWithPriority(value: JsValue, priority: Priority)
    | UpdateValue(value: JsValue)
    | RemoveValue

  /** What a write succeeds with: `Utils.Tuple0` or the handle written to. */
  datatype Written = Unit | Ref(path: Path)

  /** The SDK write a mutation issues: its method name and its arguments, the callback left out. */
  function MutationCall(target: Target, m: Mutation): (call: SdkCall)
    ensures call.Write? && call.target == target
    ensures call.name == "set" <==> m.SetValue?
    ensures call.name == "setWithPriority" <==> m.SetWithPriority?
    ensures call.name == "update" <==> m.UpdateValue?
    ensures call.name == "remove" <==> m.RemoveValue?
    ensures m.SetValue? || m.UpdateValue? ==> call.args == [m.value]
    ensures m.SetWithPriority? ==>
      && |call.args| == 2 && call.args[0] == m.value
      && call.args[1] == Priority2Fb(m.priority) && Priority2Elm(call.args[1]) == m.priority
    ensures m.RemoveValue? ==> call.args == []
  {
    match m
    case SetValue(v) => Write(target, "set", [v])
    case SetWithPriority(v, p) => Write(target, "setWithPriority", [v, Priority2Fb(p)])
    case UpdateValue(v) => Write(target, "update", [v])
    case RemoveValue => Write(target, "remove", [])
  }

  /**
   * `set`, `setWithPriority`, `update`, `remove`: with `onDisconnect` the write is queued on
   * the disconnect handle and succeeds with unit; otherwise it goes to the node and succeeds
   * with the resolved handle. Errors come back translated.
   */
  function Mutate(backend: Backend, keys: nat, onDisconnect: bool, m: Mutation, loc: Location,
                  reply: Reply<()>): (r: Run<Written>)
    ensures ShortCircuits(backend, loc, keys, r)
    ensures var resolved := GetRef(backend, loc, keys);
      resolved.ref.Success? ==>
        && r.keys == resolved.keys
        && |r.calls| == 1
        && r.calls[0].Write?
        && r.calls[0].target.path == resolved.ref.value
        && (r.calls[0].target.OnDisconnect? <==> onDisconnect)
        && r.calls[0] == MutationCall(r.calls[0].target, m)
        && (m.SetWithPriority? ==>
              |r.calls[0].args| == 2 && r.calls[0].args[0] == m.value
              && r.calls[0].args[1] == Priority2Fb(m.priority)
              && Priority2Elm(r.calls[0].args[1]) == m.priority)
        && (reply.Done? ==> r.outcome == Success(if onDisconnect then Unit else Ref(resolved.ref.value)))
        && (reply.Failed? ==> r.outcome == Fail(FbTaskError(reply.error)))
        && (reply.Threw? ==> r.outcome == Fail(ExTaskError(reply.text)))
  {
    var resolved := GetRef(backend, loc, keys);
    match resolved.ref
    case Fail(e) => Run(Fail(e), [], resolved.keys)
    case Success(p) =>
      var target := if onDisconnect then OnDisconnect(p) else Node(p);
      var res := if onDisconnect then Unit else Ref(p);
      Run(Settle(reply, res), [MutationCall(target, m)], resolved.keys)
  }

  /** `setPriority`: always on the node itself, succeeds with the handle. */
  function SetPriority(backend: Backend, keys: nat, p: Priority, loc: Location, reply: Reply<()>): (r: Run<Path>)
    ensures ShortCircuits(backend, loc, keys, r)
    ensures var resolved := GetRef(backend, loc, keys);
      resolved.ref.Success? ==>
        && r.calls == [Write(Node(resolved.ref.value), "setPriority", [Priority2Fb(p)])]
        && Priority2Elm(r.calls[0].args[0]) == p
        && (r.outcome.Success? <==> reply.Done?)
        && (r.outcome.Success? ==> r.outcome.value == resolved.ref.value)
        && (reply.Failed? ==> r.outcome.error == FbTaskError(reply.error))
        && (reply.Threw? ==> r.outcome.error == ExTaskError(reply.text))
  {
    var resolved := GetRef(backend, loc, keys);
    match resolved.ref
    case Fail(e) => Run(Fail(e), [], resolved.keys)
    case Success(path) =>
      Run(Settle(reply, path), [Write(Node(path), "setPriority", [Priority2Fb(p)])], resolved.keys)
  }

  /** `onDisconnectCancel`: cancels the writes queued on the disconnect handle; unit on success. */
  function OnDisconnectCancel(backend: Backend, keys: nat, loc: Location, reply: Reply<()>): (r: Run<()>)
    ensures ShortCircuits(backend, loc, keys, r)
    ensures var resolved := GetRef(backend, loc, keys);
      resolved.ref.Success? ==>
        && r.calls == [Write(OnDisconnect(resolved.ref.value), "cancel", [])]
        && (r.outcome.Success? <==> reply.Done?)
        && (reply.Failed? ==> r.outcome == Fail(FbTaskError(reply.error)))
        && (reply.Threw? ==> r.outcome == Fail(ExTaskError(reply.text)))
  {
    var resolved := GetRef(backend, loc, keys);
    match resolved.ref
    case Fail(e) => Run(Fail(e), [], resolved.keys)
    case Success(path) => Run(Settle(reply, ()), [Write(OnDisconnect(path), "cancel", [])], resolved.keys)
  }

  /** What an Elm transaction update function decides. */
  datatype Action = Abort | Remove | Set(value: JsValue)

  /** The value `fbUpdateFunc` hands back to the SDK for an action. */
  function ActionToFb(a: Action): (v: JsValue)
    ensures a.Set? && !Nullish(a.value) ==> ActionOfFb(v) == a
    ensures !a.Set? ==> ActionOfFb(v) == a
  {
    match a
    case Abort => Undefined
    case Remove => Null
    case Set(v) => v
  }

  /** How the SDK reads an update function's return: undefined aborts, null deletes. */
  function ActionOfFb(v: JsValue): Action {
    match v
    case Undefined => Abort
    case Null => Remove
    case _ => Set(v)
  }

  /** `Set` of a null or undefined value reads as `Remove` or `Abort` respectively. */
  lemma SetOfNullishValue(v: JsValue)
    requires Nullish(v)
    ensures ActionOfFb(ActionToFb(Set(v))) == (if v.Null? then Remove else Abort)
  {
  }

  /**
   * `fbUpdateFunc`: the previous value reaches Elm as a `Maybe` (absent when the node does
   * not exist) and Elm's action goes back in the SDK's encoding.
   */
  function FbUpdateFunc(update: Maybe<JsValue> -> Action, prev: JsValue): (v: JsValue)
    ensures update(AsMaybe(prev)).Abort? ==> v.Undefined?
    ensures update(AsMaybe(prev)).Remove? ==> v.Null?
    ensures update(AsMaybe(prev)).Set? ==> v == update(AsMaybe(prev)).value
    ensures Nullish(prev) ==> v == ActionToFb(update(Nothing))
  {
    ActionToFb(update(AsMaybe(prev)))
  }

  /**
   * `transaction`: on completion the outcome is the committed flag with the resulting
   * snapshot (tagged `_transaction_`, no previous key); errors come back translated.
   */
  function Transaction(backend: Backend, keys: nat, loc: Location, applyLocally: bool,
                       reply: Reply<(bool, FbSnapshot)>): (r: Run<(bool, Snapshot)>)
    ensures ShortCircuits(backend, loc, keys, r)
    ensures var resolved := GetRef(backend, loc, keys);
      resolved.ref.Success? ==>
        && r.calls == [Transact(resolved.ref.value, applyLocally)]
        && (r.outcome.Success? <==> reply.Done?)
        && (reply.Failed? ==> r.outcome.error == FbTaskError(reply.error))
        && (reply.Threw? ==> r.outcome.error == ExTaskError(reply.text))
        && (reply.Done? ==>
              && r.outcome.value == (reply.result.0, Snapshot2Elm("_transaction_", reply.result.1, Nothing))
              && r.outcome.value.0 == reply.result.0
              && r.outcome.value.1.intern == reply.result.1
              && r.outcome.value.1.subscription == "_transaction_"
              && r.outcome.value.1.prevKey == Wrapped(Nothing))
  {
    var resolved := GetRef(backend, loc, keys);
    match resolved.ref
    case Fail(e) => Run(Fail(e), [], resolved.keys)
    case Success(path) =>
      var outcome := match reply
        case Threw(text) => Fail(ExTaskError(text))
        case Failed(e) => Fail(FbTaskError(e))
        case Done((committed, fb)) => Success((committed, Snapshot2Elm("_transaction_", fb, Nothing)));
      Run(outcome, [Transact(path, applyLocally)], resolved.keys)
  }

  /**
   * `once`: the compiled query is read once for the query's event type; the first firing
   * becomes a `_once_` snapshot, a cancellation a translated error.
   */
  function Once(backend: Backend, keys: nat, q: Query, loc: Location,
                reply: Reply<(FbSnapshot, Maybe<string>)>): (r: Run<Snapshot>)
    ensures ShortCircuits(backend, loc, keys, r)
    ensures var resolved := GetRef(backend, loc, keys);
      resolved.ref.Success? ==>
        && r.calls == [ListenOnce(resolved.ref.value, QueryOrderAndFilter(q), QueryEventType(q))]
        && (r.outcome.Success? <==> reply.Done?)
        && (reply.Failed? ==> r.outcome.error == FbTaskError(reply.error))
        && (reply.Threw? ==> r.outcome.error == ExTaskError(reply.text))
        && (reply.Done? ==>
              && r.outcome.value == Snapshot2Elm("_once_", reply.result.0, reply.result.1)
              && r.outcome.value.intern == reply.result.0
              && r.outcome.value.subscription == "_once_"
              && r.outcome.value.prevKey == Wrapped(reply.result.1))
  {
    var resolved := GetRef(backend, loc, keys);
    match resolved.ref
    case Fail(e) => Run(Fail(e), [], resolved.keys)
    case Success(path) =>
      var outcome := match reply
        case Threw(text) => Fail(ExTaskError(text))
        case Failed(e) => Fail(FbTaskError(e))
        case Done((fb, prevKey)) => Success(Snapshot2Elm("_once_", fb, prevKey));
      Run(outcome, [ListenOnce(path, QueryOrderAndFilter(q), QueryEventType(q))], resolved.keys)
  }

  /**
   * A child name the SDK rejects fails the write before any call: the outcome is the
   * `LocationError` carrying the SDK's text, and nothing is written.
   */
  lemma RejectedChildNameWritesNothing(backend: Backend, keys: nat, onDisconnect: bool, m: Mutation,
                                       name: string, l: Location, reply: Reply<()>)
    requires GetRef(backend, l, keys).ref.Success?
    requires backend.childError(name).Just?
    ensures var r := Mutate(backend, keys, onDisconnect, m, SubLocation(name, l), reply);
      r.calls == [] && r.outcome == Fail(LocationFailure(backend.childError(name).value))
  {
    RejectedChildNameFails(backend, name, l, keys);
  }

  /**
   * A URL the SDK rejects fails the write before any call: the outcome is the `LocationError`
   * carrying the SDK's text, and nothing is written.
   */
  lemma RejectedUrlWritesNothing(backend: Backend, keys: nat, onDisconnect: bool, m: Mutation,
                                 url: string, reply: Reply<()>)
    requires backend.parseUrl(url).Fail?
    ensures var r := Mutate(backend, keys, onDisconnect, m, UrlLocation(url), reply);
      r.calls == [] && r.outcome == Fail(LocationFailure(backend.parseUrl(url).error)) && r.keys == keys
  {
    RejectedUrlFails(backend, url, keys);
  }

  /** A write queued for disconnect reports unit as soon as the SDK accepts it, never a handle. */
  lemma DisconnectWriteYieldsUnit(backend: Backend, keys: nat, m: Mutation, loc: Location)
    requires GetRef(backend, loc, keys).ref.Success?
    ensures Mutate(backend, keys, true, m, loc, Done(())).outcome == Success(Unit)
    ensures Mutate(backend, keys, false, m, loc, Done(())).outcome
         == Success(Ref(GetRefStep(backend, loc, keys).ref.value))
  {
  }
}

=== FILE: queries.dfy ===
/**
 * Query compilation (src/Native/ElmFire.js:281-350): the event type a query listens for, and
 * the chain of builder calls `queryOrderAndFilter` applies to a handle. Every field is tested
 * for JavaScript truthiness, so a present-but-falsy bound or limit (0, "") is skipped.
 */
module Queries {
  import opened Elm
  import opened Values
  import opened Errors

  datatype QueryEvent = ValueChanged | ChildAdded | ChildChanged | ChildRemoved | ChildMoved

  /** A priority range point: the priority and an optional tie-breaking key. */
  datatype PriorityBound = PriorityBound(priority: Priority, key: Maybe<string>)

  /**
   * The query record the Elm side hands over; `Nothing` is an absent field.
   * `orderByChildOrValue` holds `Just name` for `orderByChild` and `Nothing` for `orderByValue`.
   */
  datatype Query = Query(
    queryEvent: Maybe<QueryEvent>,
    orderByChildOrValue: Maybe<Maybe<string>>,
    orderByKey: bool,
    orderByPriority: bool,
    startAtValue: Maybe<JsValue>,
    endAtValue: Maybe<JsValue>,
    startAtKey: Maybe<string>,
    endAtKey: Maybe<string>,
    startAtPriority: Maybe<PriorityBound>,
    endAtPriority: Maybe<PriorityBound>,
    limitToFirst: Maybe<int>,
    limitToLast: Maybe<int>)

  const BadQueryType := "Bad query type." + PleaseReportThis

  /** `queryEventType`: the backend event name, or the error text when no event is set. */
  function QueryEventType(q: Query): (t: string)
    ensures t == BadQueryType <==> q.queryEvent.Nothing?
    ensures q.queryEvent == Just(ValueChanged) <==> t == "value"
    ensures q.queryEvent == Just(ChildAdded) <==> t == "child_added"
    ensures q.queryEvent == Just(ChildChanged) <==> t == "child_changed"
    ensures q.queryEvent == Just(ChildRemoved) <==> t == "child_removed"
    ensures q.queryEvent == Just(ChildMoved) <==> t == "child_moved"
  {
    match q.queryEvent
    case Nothing => BadQueryType
    case Just(ValueChanged) => "value"
    case Just(ChildAdded) => "child_added"
    case Just(ChildChanged) => "child_changed"
    case Just(ChildRemoved) => "child_removed"
    case Just(ChildMoved) => "child_moved"
  }

  /** Distinct events listen under distinct backend names. */
  lemma QueryEventTypeInjective(q1: Query, q2: Query)
    requires q1.queryEvent.Just? && q2.queryEvent.Just?
    requires QueryEventType(q1) == QueryEventType(q2)
    ensures q1.queryEvent == q2.queryEvent
  {
  }

  /** One builder step, named after the `if` block of `queryOrderAndFilter` that emits it. */
  datatype Clause =
    | OrderByChild(child: string)
    | OrderByValue
    | OrderByKey
    | OrderByPriority
    | StartAtValue(value: JsValue)
    | EndAtValue(value: JsValue)
    | StartAtKey(key: string)
    | EndAtKey(key: string)
    | StartAtPriority(bound: PriorityBound)
    | EndAtPriority(bound: PriorityBound)
    | LimitToFirst(n: int)
    | LimitToLast(n: int)

  const MaxRank: nat := 10

  /** The position of a clause's `if` block in the source. */
  function Rank(c: Clause): (k: nat)
    ensures k <= MaxRank
  {
    match c
    case OrderByChild(_) => 0
    case OrderByValue => 0
    case OrderByKey => 1
    case OrderByPriority => 2
    case StartAtValue(_) => 3
    case EndAtValue(_) => 4
    case StartAtKey(_) => 5
    case EndAtKey(_) => 6
    case StartAtPriority(_) => 7
    case EndAtPriority(_) => 8
    case LimitToFirst(_) => 9
    case LimitToLast(_) => 10
  }

  /** Whether the query's fields ask for clause `c`: the field is present and truthy. */
  predicate Selected(q: Query, c: Clause) {
    match c
    case OrderByChild(n) => q.orderByChildOrValue == Just(Just(n))
    case OrderByValue => q.orderByChildOrValue == Just(Nothing)
    case OrderByKey => q.orderByKey
    case OrderByPriority => q.orderByPriority
    case StartAtValue(v) => q.startAtValue == Just(v) && Truthy(v)
    case EndAtValue(v) => q.endAtValue == Just(v) && Truthy(v)
    case StartAtKey(k) => q.startAtKey == Just(k) && Truthy(Str(k))
    case EndAtKey(k) => q.endAtKey == Just(k) && Truthy(Str(k))
    case StartAtPriority(b) => q.startAtPriority == Just(b)
    case EndAtPriority(b) => q.endAtPriority == Just(b)
    case LimitToFirst(n) => q.limitToFirst == Just(n) && Truthy(Num(n))
    case LimitToLast(n) => q.limitToLast == Just(n) && Truthy(Num(n))
  }

  predicate StrictlyRanked(cs: seq<Clause>) {
    forall i, j :: 0 <= i < j < |cs| ==> Rank(cs[i]) < Rank(cs[j])
  }

  /** The clause of the `if` block at position `k`, when the query selects it. */
  function Block(q: Query, k: nat): (p: seq<Clause>)
    requires k <= MaxRank
    ensures |p| <= 1
    ensures forall c :: c in p ==> Rank(c) == k && Selected(q, c)
    ensures forall c :: Rank(c) == k && Selected(q, c) ==> c in p
  {
    match k
    case 0 =>
      (match q.orderByChildOrValue
       case Nothing => []
       case Just(Just(n)) => [OrderByChild(n)]
       case Just(Nothing) => [OrderByValue])
    case 1 => if q.orderByKey then [OrderByKey] else []
    case 2 => if q.orderByPriority then [OrderByPriority] else []
    case 3 => (match q.startAtValue case Just(v) => if Truthy(v) then [StartAtValue(v)] else [] case Nothing => [])
    case 4 => (match q.endAtValue case Just(v) => if Truthy(v) then [EndAtValue(v)] else [] case Nothing => [])
    case 5 => (match q.startAtKey case Just(k) => if k != "" then [StartAtKey(k)] else [] case Nothing => [])
    case 6 => (match q.endAtKey case Just(k) => if k != "" then [EndAtKey(k)] else [] case Nothing => [])
    case 7 => (match q.startAtPriority case Just(b) => [StartAtPriority(b)] case Nothing => [])
    case 8 => (match q.endAtPriority case Just(b) => [EndAtPriority(b)] case Nothing => [])
    case 9 => (match q.limitToFirst case Just(n) => if n != 0 then [LimitToFirst(n)] else [] case Nothing => [])
    case 10 => (match q.limitToLast case Just(n) => if n != 0 then [LimitToLast(n)] else [] case Nothing => [])
  }

  /** The clauses of the blocks from position `k` on, in block order. */
  function ClausesFrom(q: Query, k: nat): (cs: seq<Clause>)
    requires k <= MaxRank + 1
    ensures StrictlyRanked(cs)
    ensures forall c :: c in cs <==> k <= Rank(c) && Selected(q, c)
    decreases MaxRank + 1 - k
  {
    if k == MaxRank + 1 then []
    else
      var head, tail := Block(q, k), ClausesFrom(q, k + 1);
      assert forall c :: c in head + tail <==> c in head || c in tail;
      head + tail
  }

  /**
   * The clauses `queryOrderAndFilter` applies, in application order: exactly the selected
   * ones, in the source's block order (orders, then value, key and priority bounds with each
   * start before its end, then limits).
   */
  function Clauses(q: Query): (cs: seq<Clause>)
    ensures StrictlyRanked(cs)
    ensures forall c :: c in cs <==> Selected(q, c)
  {
    ClausesFrom(q, 0)
  }

  /** Ranks grow along a strictly ranked list. */
  lemma RankMonotone(s: seq<Clause>, i: nat, j: nat)
    requires StrictlyRanked(s) && i <= j < |s|
    ensures Rank(s[i]) <= Rank(s[j])
    ensures i < j ==> Rank(s[i]) < Rank(s[j])
  {
  }

  lemma EmptyIffEmpty(a: seq<Clause>, b: seq<Clause>)
    requires forall c :: c in a <==> c in b
    ensures |a| == 0 <==> |b| == 0
  {
    if |a| > 0 { assert a[0] in b; }
    if |b| > 0 { assert b[0] in a; }
  }

  /** With the same members, two strictly ranked lists start with the same clause. */
  lemma HeadsAgree(a: seq<Clause>, b: seq<Clause>)
    requires StrictlyRanked(a) && StrictlyRanked(b)
    requires forall c :: c in a <==> c in b
    requires |a| > 0 && |b| > 0
    ensures a[0] == b[0]
  {
    assert a[0] in b;
    var k :| 0 <= k < |b| && b[k] == a[0];
    assert b[0] in a;
    var m :| 0 <= m < |a| && a[m] == b[0];
    RankMonotone(b, 0, k);
    RankMonotone(a, 0, m);
  }

  /** Past a shared head, two strictly ranked lists with the same members share their tails' members. */
  lemma TailsShareMembers(a: seq<Clause>, b: seq<Clause>, c: Clause)
    requires StrictlyRanked(a) && StrictlyRanked(b)
    requires forall x :: x in a <==> x in b
    requires |a| > 0 && |b| > 0 && a[0] == b[0]
    ensures c in a[1..] <==> c in b[1..]
  {
    assert a == [a[0]] + a[1..];
    assert b == [b[0]] + b[1..];
    if c in a[1..] {
      var i :| 0 <= i < |a[1..]| && a[1..][i] == c;
      RankMonotone(a, 0, i + 1);
      assert c in b && c != b[0];
    }
    if c in b[1..] {
      var j :| 0 <= j < |b[1..]| && b[1..][j] == c;
      RankMonotone(b, 0, j + 1);
      assert c in a && c != a[0];
    }
  }

  /** Two strictly ranked clause lists with the same members are the same list. */
  lemma {:induction false} StrictlyRankedDeterminedByMembers(a: seq<Clause>, b: seq<Clause>)
    requires StrictlyRanked(a) && StrictlyRanked(b)
    requires forall c :: c in a <==> c in b
    ensures a == b
    decreases |a|
  {
    EmptyIffEmpty(a, b);
    if |a| > 0 {
      HeadsAgree(a, b);
      forall c
        ensures c in a[1..] <==> c in b[1..]
      {
        TailsShareMembers(a, b, c);
      }
      StrictlyRankedDeterminedByMembers(a[1..], b[1..]);
      assert a == [a[0]] + a[1..];
      assert b == [b[0]] + b[1..];
    }
  }

  /**
   * The selection rule and the block order determine the compiled clauses completely: any
   * strictly ranked list holding exactly the selected clauses is `Clauses(q)`.
   */
  lemma ClausesUnique(q: Query, cs: seq<Clause>)
    requires StrictlyRanked(cs)
    requires forall c :: c in cs <==> Selected(q, c)
    ensures cs == Clauses(q)
  {
    StrictlyRankedDeterminedByMembers(cs, Clauses(q));
  }

  /** A builder call on the backend query: method name and argument list. */
  datatype Call = Call(name: string, args: seq<JsValue>)

  /** The backend call a clause makes; key bounds go through the same `startAt`/`endAt`. */
  function ToCall(c: Clause): (call: Call)
    ensures |call.args| == 2 <==> (c.StartAtPriority? || c.EndAtPriority?) && c.bound.key.Just?
    ensures call.name == "orderByChild" <==> c.OrderByChild?
    ensures call.name == "orderByValue" <==> c.OrderByValue?
    ensures call.name == "orderByKey" <==> c.OrderByKey?
    ensures call.name == "orderByPriority" <==> c.OrderByPriority?
    ensures call.name == "startAt" <==> c.StartAtValue? || c.StartAtKey? || c.StartAtPriority?
    ensures call.name == "endAt" <==> c.EndAtValue? || c.EndAtKey? || c.EndAtPriority?
    ensures call.name == "limitToFirst" <==> c.LimitToFirst?
    ensures call.name == "limitToLast" <==> c.LimitToLast?
    ensures c.OrderByChild? ==> call.args == [Str(c.child)]
    ensures c.OrderByValue? || c.OrderByKey? || c.OrderByPriority? ==> call.args == []
    ensures c.StartAtValue? || c.EndAtValue? ==> call.args == [c.value]
    ensures c.StartAtKey? || c.EndAtKey? ==> call.args == [Str(c.key)]
    ensures c.StartAtPriority? || c.EndAtPriority? ==>
      |call.args| >= 1 && call.args[0] == Priority2Fb(c.bound.priority)
      && Priority2Elm(call.args[0]) == c.bound.priority
      && (c.bound.key.Just? ==> call.args[1] == Str(c.bound.key.value))
    ensures c.LimitToFirst? || c.LimitToLast? ==> call.args == [Num(c.n)]
  {
    match c
    case OrderByChild(n) => Call("orderByChild", [Str(n)])
    case OrderByValue => Call("orderByValue", [])
    case OrderByKey => Call("orderByKey", [])
    case OrderByPriority => Call("orderByPriority", [])
    case StartAtValue(v) => Call("startAt", [v])
    case EndAtValue(v) => Call("endAt", [v])
    case StartAtKey(k) => Call("startAt", [Str(k)])
    case EndAtKey(k) => Call("endAt", [Str(k)])
    case StartAtPriority(b) => Call("startAt", PriorityArgs(b))
    case EndAtPriority(b) => Call("endAt", PriorityArgs(b))
    case LimitToFirst(n) => Call("limitToFirst", [Num(n)])
    case LimitToLast(n) => Call("limitToLast", [Num(n)])
  }

  /** The arguments of a priority bound: one without a key, two (priority, key) with one. */
  function PriorityArgs(b: PriorityBound): (args: seq<JsValue>)
    ensures |args| >= 1 && args[0] == Priority2Fb(b.priority) && Priority2Elm(args[0]) == b.priority
    ensures b.key.Nothing? ==> |args| == 1
    ensures b.key.Just? ==> |args| == 2 && args[1] == Str(b.key.value)
  {
    var prio := Priority2Fb(b.priority);
    match b.key
    case Nothing => [prio]
    case Just(k) => [prio, Str(k)]
  }

  /** Which group a builder call belongs to: ordering 0, range 1, limit 2. */
  function Group(call: Call): nat {
    if call.name in {"orderByChild", "orderByValue", "orderByKey", "orderByPriority"} then 0
    else if call.name in {"startAt", "endAt"} then 1
    else 2
  }

  lemma GroupOfClause(c: Clause)
    ensures Group(ToCall(c)) == if Rank(c) <= 2 then 0 else if Rank(c) <= 8 then 1 else 2
  {
  }

  /** `queryOrderAndFilter`: the builder calls applied to the handle, one per compiled clause. */
  function QueryOrderAndFilter(q: Query): (calls: seq<Call>)
    ensures |calls| == |Clauses(q)|
    ensures forall i :: 0 <= i < |calls| ==> calls[i] == ToCall(Clauses(q)[i])
  {
    var cs := Clauses(q);
    seq(|cs|, i requires 0 <= i < |cs| => ToCall(cs[i]))
  }

  /** Every ordering call precedes every range call, and every range call precedes the limits. */
  lemma CompiledCallsGrouped(q: Query)
    ensures var calls := QueryOrderAndFilter(q);
      forall i, j :: 0 <= i < j < |calls| ==> Group(calls[i]) <= Group(calls[j])
  {
    var cs, calls := Clauses(q), QueryOrderAndFilter(q);
    forall i, j | 0 <= i < j < |calls|
      ensures Group(calls[i]) <= Group(calls[j])
    {
      GroupOfClause(cs[i]);
      GroupOfClause(cs[j]);
      assert Rank(cs[i]) < Rank(cs[j]);
    }
  }

  /** A compiled clause shows up as its call in the compiled query. */
  lemma SelectedClauseCalled(q: Query, c: Clause)
    requires Selected(q, c)
    ensures ToCall(c) in QueryOrderAndFilter(q)
  {
    var cs := Clauses(q);
    var i :| 0 <= i < |cs| && cs[i] == c;
    assert QueryOrderAndFilter(q)[i] == ToCall(c);
  }

  /**
   * A priority bound is always applied: with the one-argument `startAt`/`endAt` when its key
   * is `Nothing`, with the two-argument form carrying the key when it is `Just k`.
   */
  lemma PriorityBoundArity(q: Query)
    ensures q.startAtPriority.Just? ==>
      Call("startAt", PriorityArgs(q.startAtPriority.value)) in QueryOrderAndFilter(q)
    ensures q.endAtPriority.Just? ==>
      Call("endAt", PriorityArgs(q.endAtPriority.value)) in QueryOrderAndFilter(q)
  {
    if q.startAtPriority.Just? {
      SelectedClauseCalled(q, StartAtPriority(q.startAtPriority.value));
    }
    if q.endAtPriority.Just? {
      SelectedClauseCalled(q, EndAtPriority(q.endAtPriority.value));
    }
  }

  /** Only a priority bound with a key produces a two-argument call. */
  lemma TwoArgumentCallsCarryPriorityKeys(q: Query)
    ensures forall call :: call in QueryOrderAndFilter(q) && |call.args| == 2 ==>
      (call.name == "startAt" && q.startAtPriority.Just? && q.startAtPriority.value.key.Just?) ||
      (call.name == "endAt" && q.endAtPriority.Just? && q.endAtPriority.value.key.Just?)
  {
    var cs, calls := Clauses(q), QueryOrderAndFilter(q);
    forall call | call in calls && |call.args| == 2
      ensures (call.name == "startAt" && q.startAtPriority.Just? && q.startAtPriority.value.key.Just?) ||
              (call.name == "endAt" && q.endAtPriority.Just? && q.endAtPriority.value.key.Just?)
    {
      var i :| 0 <= i < |calls| && calls[i] == call;
      var c := cs[i];
      assert c in cs;
      assert Selected(q, c);
      assert c.StartAtPriority? || c.EndAtPriority?;
    }
  }

  /** A limit of 0 is falsy and emits no limit call. */
  lemma ZeroLimitsSkipped(q: Query)
    ensures q.limitToFirst == Just(0) ==> forall c :: c in Clauses(q) ==> !c.LimitToFirst?
    ensures q.limitToLast == Just(0) ==> forall c :: c in Clauses(q) ==> !c.LimitToLast?
  {
    forall c | c in Clauses(q)
      ensures q.limitToFirst == Just(0) ==> !c.LimitToFirst?
      ensures q.limitToLast == Just(0) ==> !c.LimitToLast?
    {
      assert Selected(q, c);
    }
  }

  /** An empty-string key bound is falsy and emits no bound. */
  lemma EmptyKeyBoundsSkipped(q: Query)
    ensures q.startAtKey == Just("") ==> forall c :: c in Clauses(q) ==> !c.StartAtKey?
    ensures q.endAtKey == Just("") ==> forall c :: c in Clauses(q) ==> !c.EndAtKey?
  {
    forall c | c in Clauses(q)
      ensures q.startAtKey == Just("") ==> !c.StartAtKey?
      ensures q.endAtKey == Just("") ==> !c.EndAtKey?
    {
      assert Selected(q, c);
    }
  }

  /** A falsy value bound (0, "", false, null) emits no bound. */
  lemma FalsyValueBoundsSkipped(q: Query)
    ensures q.startAtValue.Just? && !Truthy(q.startAtValue.value) ==>
      forall c :: c in Clauses(q) ==> !c.StartAtValue?
    ensures q.endAtValue.Just? && !Truthy(q.endAtValue.value) ==>
      forall c :: c in Clauses(q) ==> !c.EndAtValue?
  {
    forall c | c in Clauses(q)
      ensures q.startAtValue.Just? && !Truthy(q.startAtValue.value) ==> !c.StartAtValue?
      ensures q.endAtValue.Just? && !Truthy(q.endAtValue.value) ==> !c.EndAtValue?
    {
      assert Selected(q, c);
    }
  }
}

=== FILE: references.dfy ===
/**
 * Location resolution (src/Native/ElmFire.js:91-141): a `Location` expression is folded into a
 * backend handle, modelled as the path of node names from the store's root. Turning a URL into
 * a path belongs to the SDK and is a parameter; `push` draws its fresh key from a counter.
 */
module References {
  import opened Elm
  import opened Errors
  import Decimal

  /** A backend handle: the names of the nodes from the root down to the referenced node. */
  type Path = seq<string>

  /**
   * The SDK's side of building a handle, which the binding cannot see: `new Firebase(url)`
   * gives a path or the text of the exception it throws, and `child(name)` throws (with the
   * text given here) for a name it rejects.
   */
  datatype Backend = Backend(parseUrl: string -> Result<Path, string>, childError: string -> Maybe<string>)

  datatype Location =
    | UrlLocation(url: string)
    | SubLocation(name: string, location: Location)
    | ParentLocation(location: Location)
    | RootLocation(location: Location)
    | PushLocation(location: Location)
    | RefLocation(ref: Path)

  const RootHasNoParent := "Error: Root has no parent"

  /** The key `push()` draws when the counter stands at `n`. */
  function PushKey(n: nat): string {
    "-" + Decimal.NatToString(n)
  }

  lemma PushKeyInjective(a: nat, b: nat)
    requires a != b
    ensures PushKey(a) != PushKey(b)
  {
    if PushKey(a) == PushKey(b) {
      assert Decimal.NatToString(a) == PushKey(a)[1..] == PushKey(b)[1..] == Decimal.NatToString(b);
      Decimal.NatToStringInjective(a, b);
    }
  }

  /** How many `push` steps a location expression contains. */
  function PushCount(loc: Location): nat {
    match loc
    case UrlLocation(_) => 0
    case SubLocation(_, l) => PushCount(l)
    case ParentLocation(l) => PushCount(l)
    case RootLocation(l) => PushCount(l)
    case PushLocation(l) => PushCount(l) + 1
    case RefLocation(_) => 0
  }

  /** The handle (or thrown text) a resolution produced, and the push counter after it. */
  datatype Resolution = Resolution(ref: Result<Path, string>, keys: nat)

  /**
   * `getRefStep`: resolve the sub-location, then apply this constructor's one navigation step.
   * A failure anywhere below stops resolution there; push keys drawn before it stay drawn.
   */
  function GetRefStep(backend: Backend, loc: Location, keys: nat): (r: Resolution)
    ensures keys <= r.keys <= keys + PushCount(loc)
    ensures r.ref.Success? ==> r.keys == keys + PushCount(loc)
    decreases loc
  {
    match loc
    case UrlLocation(url) => Resolution(backend.parseUrl(url), keys)
    case RefLocation(ref) => Resolution(Success(ref), keys)
    case SubLocation(name, l) =>
      var inner := GetRefStep(backend, l, keys);
      if inner.ref.Fail? then inner
      else if backend.childError(name).Just? then Resolution(Fail(backend.childError(name).value), inner.keys)
      else Resolution(Success(inner.ref.value + [name]), inner.keys)
    case ParentLocation(l) =>
      var inner := GetRefStep(backend, l, keys);
      if inner.ref.Fail? then inner
      else if |inner.ref.value| == 0 then Resolution(Fail(RootHasNoParent), inner.keys)
      else Resolution(Success(inner.ref.value[..|inner.ref.value| - 1]), inner.keys)
    case RootLocation(l) =>
      var inner := GetRefStep(backend, l, keys);
      if inner.ref.Fail? then inner
      else Resolution(Success([]), inner.keys)
    case PushLocation(l) =>
      var inner := GetRefStep(backend, l, keys);
      if inner.ref.Fail? then inner
      else Resolution(Success(inner.ref.value + [PushKey(inner.keys)]), inner.keys + 1)
  }

  /** The outcome of `getRef`: the handle, or the `LocationError` the failure callback gets. */
  datatype Resolved = Resolved(ref: Result<Path, Error>, keys: nat)

  /** `getRef`: every exception thrown during resolution becomes a `LocationError`. */
  function GetRef(backend: Backend, loc: Location, keys: nat): (r: Resolved)
    ensures var step := GetRefStep(backend, loc, keys);
      && r.keys == step.keys
      && (step.ref.Success? <==> r.ref.Success?)
      && (step.ref.Success? ==> r.ref.value == step.ref.value)
      && (step.ref.Fail? ==> r.ref.error == LocationFailure(step.ref.error))
  {
    var step := GetRefStep(backend, loc, keys);
    match step.ref
    case Success(p) => Resolved(Success(p), step.keys)
    case Fail(text) => Resolved(Fail(LocationFailure(text)), step.keys)
  }

  /** The SDK's `key()`: null at the root, otherwise the last name on the path. */
  function RefKey(p: Path): Maybe<string> {
    if |p| == 0 then Nothing else Just(p[|p| - 1])
  }

  /** `key`: the handle's key with the root's null replaced by the empty string. */
  function Key(p: Path): (k: string)
    ensures RefKey(p).Just? ==> k == RefKey(p).value
    ensures RefKey(p).Nothing? ==> k == ""
  {
    if |p| == 0 then "" else p[|p| - 1]
  }

  // ---- properties of resolution -------------------------------------------------------

  /** `RefLocation` hands back its handle unchanged and draws no key. */
  lemma RefLocationIsIdentity(backend: Backend, ref: Path, keys: nat)
    ensures GetRef(backend, RefLocation(ref), keys) == Resolved(Success(ref), keys)
  {
  }

  /** A child location with an accepted name resolves, and its key is the child's name. */
  lemma SubLocationKey(backend: Backend, name: string, l: Location, keys: nat)
    requires GetRefStep(backend, l, keys).ref.Success?
    ensures var r := GetRefStep(backend, SubLocation(name, l), keys);
      (r.ref.Success? <==> backend.childError(name).Nothing?) && (r.ref.Success? ==> Key(r.ref.value) == name)
  {
  }

  /** A name `child` rejects makes resolution fail with the SDK's text, as a `LocationError`. */
  lemma RejectedChildNameFails(backend: Backend, name: string, l: Location, keys: nat)
    requires GetRefStep(backend, l, keys).ref.Success?
    requires backend.childError(name).Just?
    ensures GetRef(backend, SubLocation(name, l), keys).ref
         == Fail(LocationFailure(backend.childError(name).value))
  {
  }

  /** Going to a child with an accepted name and back up again lands on the original handle. */
  lemma ParentOfSubLocation(backend: Backend, name: string, l: Location, keys: nat)
    ensures backend.childError(name).Nothing? ==>
      GetRefStep(backend, ParentLocation(SubLocation(name, l)), keys) == GetRefStep(backend, l, keys)
  {
    var inner := GetRefStep(backend, l, keys);
    if inner.ref.Success? {
      assert (inner.ref.value + [name])[..|inner.ref.value|] == inner.ref.value;
    }
  }

  /**
   * The parent of a handle that resolves to the root fails: `getRef` reports a `LocationError`
   * and hands back no handle, so callers make no backend call.
   */
  lemma ParentOfRootFails(backend: Backend, l: Location, keys: nat)
    requires GetRefStep(backend, l, keys).ref == Success([])
    ensures GetRef(backend, ParentLocation(l), keys).ref == Fail(LocationFailure(RootHasNoParent))
  {
  }

  /** The parent of a URL that denotes the store's root fails. */
  lemma ParentOfRootUrlFails(backend: Backend, url: string, keys: nat)
    requires backend.parseUrl(url) == Success([])
    ensures GetRef(backend, ParentLocation(UrlLocation(url)), keys)
         == Resolved(Fail(LocationFailure(RootHasNoParent)), keys)
  {
    assert GetRefStep(backend, UrlLocation(url), keys) == Resolution(Success([]), keys);
  }

  /**
   * `root()` of any resolvable location is the store's root: the empty path, whose key is ""
   * and whose parent fails with "Error: Root has no parent".
   */
  lemma RootLocationIsRoot(backend: Backend, l: Location, keys: nat)
    requires GetRefStep(backend, l, keys).ref.Success?
    ensures GetRefStep(backend, RootLocation(l), keys) == Resolution(Success([]), GetRefStep(backend, l, keys).keys)
    ensures Key(GetRefStep(backend, RootLocation(l), keys).ref.value) == ""
    ensures GetRef(backend, ParentLocation(RootLocation(l)), keys).ref == Fail(LocationFailure(RootHasNoParent))
  {
  }

  /** A URL location is handed to the SDK as it stands: its handle or failure is the SDK's. */
  lemma UrlLocationResolves(backend: Backend, url: string, keys: nat)
    ensures GetRefStep(backend, UrlLocation(url), keys) == Resolution(backend.parseUrl(url), keys)
  {
  }

  /**
   * A URL the SDK rejects fails resolution: `getRef` reports the constructor's exception text
   * as a `LocationError` and hands back no handle.
   */
  lemma RejectedUrlFails(backend: Backend, url: string, keys: nat)
    requires backend.parseUrl(url).Fail?
    ensures GetRef(backend, UrlLocation(url), keys)
         == Resolved(Fail(LocationFailure(backend.parseUrl(url).error)), keys)
  {
  }

  /** Taking the root twice is the same as taking it once. */
  lemma RootIdempotent(backend: Backend, l: Location, keys: nat)
    ensures GetRefStep(backend, RootLocation(RootLocation(l)), keys)
         == GetRefStep(backend, RootLocation(l), keys)
  {
  }

  /**
   * `push()` creates a child of the location's handle: the new handle is one level below it,
   * its parent is that handle again, and its key is the push key drawn after resolving it.
   */
  lemma PushLocationIsChild(backend: Backend, l: Location, keys: nat)
    requires GetRefStep(backend, l, keys).ref.Success?
    ensures var inner := GetRefStep(backend, l, keys);
      var pushed := GetRefStep(backend, PushLocation(l), keys);
      && pushed.ref.Success?
      && |pushed.ref.value| == |inner.ref.value| + 1
      && pushed.ref.value[..|inner.ref.value|] == inner.ref.value
      && Key(pushed.ref.value) == PushKey(inner.keys)
      && pushed.keys == inner.keys + 1
    ensures GetRefStep(backend, ParentLocation(PushLocation(l)), keys)
         == Resolution(GetRefStep(backend, l, keys).ref, GetRefStep(backend, l, keys).keys + 1)
  {
    var inner := GetRefStep(backend, l, keys);
    assert (inner.ref.value + [PushKey(inner.keys)])[..|inner.ref.value|] == inner.ref.value;
  }

  /**
   * A failure below any navigation step is passed up unchanged: same text, same counter.
   */
  lemma FailurePropagates(backend: Backend, outer: Location, keys: nat)
    requires !outer.UrlLocation? && !outer.RefLocation?
    requires GetRefStep(backend, outer.location, keys).ref.Fail?
    ensures GetRefStep(backend, outer, keys) == GetRefStep(backend, outer.location, keys)
  {
  }

  /** Without `push` steps resolution is pure: the counter neither matters nor moves. */
  lemma {:induction false} ResolutionPureWithoutPush(backend: Backend, loc: Location, k1: nat, k2: nat)
    requires PushCount(loc) == 0
    ensures GetRefStep(backend, loc, k1).ref == GetRefStep(backend, loc, k2).ref
    ensures GetRefStep(backend, loc, k1).keys == k1
  {
    match loc
    case UrlLocation(_) =>
    case RefLocation(_) =>
    case SubLocation(_, l) => ResolutionPureWithoutPush(backend, l, k1, k2);
    case ParentLocation(l) => ResolutionPureWithoutPush(backend, l, k1, k2);
    case RootLocation(l) => ResolutionPureWithoutPush(backend, l, k1, k2);
  }

  /**
   * Resolving the same `push` expression twice in a row (threading the counter) yields two
   * different children: each handle lies one level below the location's handle as resolved
   * for it (the same handle both times when `l` itself contains no push), and the two differ.
   */
  lemma RepeatedPushYieldsDistinctChildren(backend: Backend, l: Location, keys: nat)
    requires GetRefStep(backend, PushLocation(l), keys).ref.Success?
    ensures var first := GetRefStep(backend, PushLocation(l), keys);
      var parent1 := GetRefStep(backend, l, keys).ref;
      |first.ref.value| > 0 && parent1 == Success(first.ref.value[..|first.ref.value| - 1])
    ensures var first := GetRefStep(backend, PushLocation(l), keys);
      var second := GetRefStep(backend, PushLocation(l), first.keys);
      var parent2 := GetRefStep(backend, l, first.keys).ref;
      second.ref.Success? ==>
        && |second.ref.value| > 0 && parent2 == Success(second.ref.value[..|second.ref.value| - 1])
        && (PushCount(l) == 0 ==> parent2 == GetRefStep(backend, l, keys).ref)
        && first.ref.value != second.ref.value
  {
    var first := GetRefStep(backend, PushLocation(l), keys);
    var second := GetRefStep(backend, PushLocation(l), first.keys);
    if second.ref.Success? {
      var in1 := GetRefStep(backend, l, keys);
      var in2 := GetRefStep(backend, l, first.keys);
      assert first.ref.value == in1.ref.value + [PushKey(in1.keys)];
      assert second.ref.value == in2.ref.value + [PushKey(in2.keys)];
      assert in1.keys < in2.keys;
      PushKeyInjective(in1.keys, in2.keys);
      assert Key(first.ref.value) == PushKey(in1.keys);
      assert Key(second.ref.value) == PushKey(in2.keys);
      assert second.ref.value[..|second.ref.value| - 1] == in2.ref.value;
      if PushCount(l) == 0 {
        ResolutionPureWithoutPush(backend, l, keys, first.keys);
      }
    }
    var in1 := GetRefStep(backend, l, keys);
    assert first.ref.value[..|first.ref.value| - 1] == in1.ref.value;
  }
}

=== FILE: sdk.dfy ===
/**
 * The boundary with the backend SDK: the calls the binding makes (recorded, without their
 * completion callbacks) and the ways the SDK can answer them. Each operation of the binding is
 * modelled as a function from the SDK's answer to an outcome plus the calls it made.
 */
module Sdk {
  import opened Elm
  import opened Values
  import opened Errors
  import opened References
  import opened Queries

  /** Where a write goes: the node itself, or the node's `onDisconnect()` queue. */
  datatype Target = Node(path: Path) | OnDisconnect(path: Path)

  datatype SdkCall =
    | Write(target: Target, name: string, args: seq<JsValue>)
    | Transact(path: Path, applyLocally: bool)
    | Listen(path: Path, query: seq<Call>, eventType: string, callback: string)
    | ListenOnce(path: Path, query: seq<Call>, eventType: string)
    | Unlisten(path: Path, eventType: string, callback: string)
    | AuthCall(path: Path, name: string, args: seq<JsValue>)

  /**
   * How the SDK answers a call that completes through a callback: it throws while the call
   * is being started, or it calls back with an error, or with a result.
   */
  datatype Reply<+T> = Threw(text: string) | Failed(error: FbError) | Done(result: T)

  /** How the SDK answers a call that returns directly: it throws, or it returns. */
  datatype Sync<+T> = Raised(text: string) | Returned(result: T)

  /** An operation's outcome, the SDK calls it made, and the push-key counter after it. */
  datatype Run<+T> = Run(outcome: Result<T, Error>, calls: seq<SdkCall>, keys: nat)

  /**
   * What every operation owes when its location cannot be resolved: it fails with the
   * `LocationError` `getRef` reports and makes no SDK call.
   */
  predicate ShortCircuits<T>(backend: Backend, loc: Location, keys: nat, r: Run<T>) {
    var resolved := GetRef(backend, loc, keys);
    resolved.ref.Fail? ==>
      r.outcome == Fail(resolved.ref.error) && r.calls == [] && r.keys == resolved.keys
  }
}

=== FILE: snapshots.dfy ===
/**
 * Snapshots (src/Native/ElmFire.js:352-367, 449-484): the Elm record built from a backend
 * snapshot, and the child projections `toSnapshotList`, `toValueList`, `toKeyList`,
 * `toPairList`.
 */
module Snapshots {
  import opened Elm
  import opened Values
  import opened References

  /** The SDK's snapshot: where it was read, its value and priority, its children in order. */
  datatype FbSnapshot = FbSnapshot(ref: Path, val: JsValue, priority: JsValue, children: seq<FbSnapshot>)

  /**
   * The `prevKey` field: `snapshot2elm` stores `asMaybe(prevKey)`, while `toSnapshotList`
   * overwrites it with the predecessor's key as a bare string.
   */
  datatype PrevKey = Wrapped(maybe: Maybe<string>) | Bare(raw: string)

  datatype Snapshot = Snapshot(
    subscription: string,
    key: string,
    reference: Path,
    value: Maybe<JsValue>,
    prevKey: PrevKey,
    priority: Priority,
    intern: FbSnapshot)

  /**
   * `snapshot2elm`: the key with the root's null turned into "", the value present exactly
   * when the backend has one, the priority in Elm form, and the backend snapshot kept.
   */
  function Snapshot2Elm(subscription: string, fb: FbSnapshot, prevKey: Maybe<string>): (s: Snapshot)
    ensures s.subscription == subscription && s.reference == fb.ref && s.intern == fb
    ensures s.key == Key(fb.ref)
    ensures s.value.Nothing? <==> Nullish(fb.val)
    ensures s.value.Just? ==> s.value.value == fb.val
    ensures fb.priority.Null? || fb.priority.Num? || fb.priority.Str? ==> Priority2Fb(s.priority) == fb.priority
    ensures s.prevKey == Wrapped(prevKey)
  {
    FbPriorityRoundTripIfRepresentable(fb.priority);
    Snapshot(subscription, Key(fb.ref), fb.ref, AsMaybe(fb.val), Wrapped(prevKey),
             Priority2Elm(fb.priority), fb)
  }

  lemma FbPriorityRoundTripIfRepresentable(v: JsValue)
    ensures v.Null? || v.Num? || v.Str? ==> Priority2Fb(Priority2Elm(v)) == v
  {
    if v.Null? || v.Num? || v.Str? {
      FbPriorityRoundTrip(v);
    }
  }

  /** One child as `toSnapshotList` builds it: tagged `_child_`, `prevKey` set to `prev`. */
  function ChildSnapshot(fb: FbSnapshot, prev: string): (s: Snapshot)
    ensures s.subscription == "_child_" && s.reference == fb.ref && s.intern == fb
    ensures s.key == Key(fb.ref) && s.value == AsMaybe(fb.val) && s.priority == Priority2Elm(fb.priority)
    ensures s.prevKey == Bare(prev)
  {
    Snapshot2Elm("_child_", fb, Nothing).(prevKey := Bare(prev))
  }

  /**
   * The loop of `toSnapshotList` from a given predecessor key on: each child gets the key of
   * the child before it, the first one gets `prev`.
   */
  function ChildSnapshots(children: seq<FbSnapshot>, prev: string): (r: seq<Snapshot>)
    ensures |r| == |children|
    ensures forall i :: 0 <= i < |r| ==>
      r[i] == ChildSnapshot(children[i], if i == 0 then prev else Key(children[i - 1].ref))
    ensures forall i :: 0 <= i < |r| ==> r[i].intern == children[i] && r[i].subscription == "_child_"
    ensures forall i :: 0 <= i < |r| ==> r[i].reference == children[i].ref
    ensures forall i :: 0 <= i < |r| ==> r[i].priority == Priority2Elm(children[i].priority)
    ensures forall i :: 0 <= i < |r| ==> r[i].key == Key(children[i].ref)
    ensures forall i :: 0 <= i < |r| ==> r[i].value == AsMaybe(children[i].val)
    ensures |r| > 0 ==> r[0].prevKey == Bare(prev)
    ensures forall i :: 0 < i < |r| ==> r[i].prevKey == Bare(Key(children[i - 1].ref))
    decreases |children|
  {
    if |children| == 0 then []
    else
      var first := ChildSnapshot(children[0], prev);
      [first] + ChildSnapshots(children[1..], first.key)
  }

  /** `toSnapshotList`: the first child has prevKey "", every later one its predecessor's key. */
  function ToSnapshotList(s: Snapshot): (r: seq<Snapshot>)
    ensures |r| == |s.intern.children|
    ensures |r| > 0 ==> r[0].prevKey == Bare("")
    ensures forall i :: 0 < i < |r| ==> r[i].prevKey == Bare(r[i - 1].key)
    ensures forall i :: 0 <= i < |r| ==>
      r[i] == ChildSnapshot(s.intern.children[i], if i == 0 then "" else r[i - 1].key)
    ensures forall i :: 0 <= i < |r| ==> r[i].intern == s.intern.children[i] && r[i].subscription == "_child_"
    ensures forall i :: 0 <= i < |r| ==> r[i].reference == s.intern.children[i].ref
    ensures forall i :: 0 <= i < |r| ==> r[i].priority == Priority2Elm(s.intern.children[i].priority)
    ensures forall i :: 0 <= i < |r| ==> r[i].key == Key(s.intern.children[i].ref)
    ensures forall i :: 0 <= i < |r| ==> r[i].value == AsMaybe(s.intern.children[i].val)
  {
    ChildSnapshots(s.intern.children, "")
  }

  /** `toListGeneric`: one projected element per child, in the backend's child order. */
  function ToListGeneric<T>(s: Snapshot, project: FbSnapshot -> T): (r: seq<T>)
    ensures |r| == |s.intern.children|
    ensures forall i :: 0 <= i < |r| ==> r[i] == project(s.intern.children[i])
  {
    seq(|s.intern.children|, i requires 0 <= i < |s.intern.children| => project(s.intern.children[i]))
  }

  /** The raw `key()` of a backend snapshot: null for the root. */
  function KeyValue(fb: FbSnapshot): JsValue {
    match RefKey(fb.ref)
    case Nothing => Null
    case Just(k) => Str(k)
  }

  /** `toValueList`: the children's values, in child order. */
  function ToValueList(s: Snapshot): (r: seq<JsValue>)
    ensures |r| == |s.intern.children|
    ensures forall i :: 0 <= i < |r| ==> r[i] == s.intern.children[i].val
  {
    ToListGeneric(s, (c: FbSnapshot) => c.val)
  }

  /** `toKeyList`: the children's raw keys, in child order. */
  function ToKeyList(s: Snapshot): (r: seq<JsValue>)
    ensures |r| == |s.intern.children|
    ensures forall i :: 0 <= i < |r| ==> r[i] == KeyValue(s.intern.children[i])
  {
    ToListGeneric(s, KeyValue)
  }

  /** `toPairList`: each child's raw key with its value, in child order. */
  function ToPairList(s: Snapshot): (r: seq<(JsValue, JsValue)>)
    ensures |r| == |s.intern.children|
    ensures forall i :: 0 <= i < |r| ==> r[i] == (KeyValue(s.intern.children[i]), s.intern.children[i].val)
  {
    ToListGeneric(s, (c: FbSnapshot) => (KeyValue(c), c.val))
  }

  /** Every child of a backend snapshot sits one level below it. */
  predicate ChildrenBelow(s: Snapshot) {
    forall c :: c in s.intern.children ==> |c.ref| > 0
  }

  /**
   * The projections line up with `toSnapshotList`: the i-th key and value are those of the
   * i-th child snapshot, and the i-th pair is that key with that value.
   */
  lemma ProjectionsAgree(s: Snapshot)
    requires ChildrenBelow(s)
    ensures var l := ToSnapshotList(s);
      && |ToKeyList(s)| == |ToValueList(s)| == |ToPairList(s)| == |l|
      && (forall i :: 0 <= i < |l| ==> ToKeyList(s)[i] == Str(l[i].key))
      && (forall i :: 0 <= i < |l| ==> AsMaybe(ToValueList(s)[i]) == l[i].value)
      && (forall i :: 0 <= i < |l| ==> ToPairList(s)[i] == (ToKeyList(s)[i], ToValueList(s)[i]))
  {
    var l, cs := ToSnapshotList(s), s.intern.children;
    var keys, vals, pairs := ToKeyList(s), ToValueList(s), ToPairList(s);
    forall i | 0 <= i < |l|
      ensures keys[i] == Str(l[i].key)
      ensures AsMaybe(vals[i]) == l[i].value
      ensures pairs[i] == (keys[i], vals[i])
    {
      assert cs[i] in cs;
      assert keys[i] == KeyValue(cs[i]);
      assert vals[i] == cs[i].val;
    }
  }

  /** The i-th child's prevKey is the (i-1)-th entry of the key list. */
  lemma PrevKeysFollowKeyList(s: Snapshot)
    requires ChildrenBelow(s)
    ensures var l := ToSnapshotList(s);
      forall i :: 0 < i < |l| ==> Str(l[i].prevKey.raw) == ToKeyList(s)[i - 1]
  {
    ProjectionsAgree(s);
  }

  /** Children keyed "a" then "b" come out with prevKey "" and then "a". */
  lemma TwoChildrenExample(s: Snapshot, a: FbSnapshot, b: FbSnapshot)
    requires s.intern.children == [a, b]
    requires Key(a.ref) == "a" && Key(b.ref) == "b"
    ensures var l := ToSnapshotList(s);
      |l| == 2 && l[0].key == "a" && l[0].prevKey == Bare("") && l[1].prevKey == Bare("a")
  {
  }
}

=== FILE: subscriptions.dfy ===
/**
 * The subscription registry (src/Native/ElmFire.js:273-279, 369-425): a counter that names
 * subscriptions "q1", "q2", ... and a map from subscription id to what `unsubscribe` needs to
 * deregister the listener. The state is passed in and handed back explicitly.
 */
module Subscriptions {
  import opened Elm
  import opened Errors
  import opened References
  import opened Queries
  import opened Snapshots
  import opened Sdk
  import Decimal

  /** Names the Elm function (`createCancellationTask`) a subscriber supplied. */
  type SinkId = nat

  datatype Cancellation = Unsubscribed(id: string) | QueryError(id: string, error: Error)

  /** A cancellation task handed to `Task.perform`: the subscriber's sink applied to a cancellation. */
  datatype Dispatch = Dispatch(sink: SinkId, cancellation: Cancellation)

  /**
   * A registry entry: the unfiltered handle, the event type and the listener callback `.off`
   * needs (the callback is identified by its subscription id), and the cancellation sink.
   */
  datatype Entry = Entry(ref: Path, eventType: string, callback: string, sink: SinkId)

  /** `sNum` and `subscriptions`. */
  datatype Registry = Registry(counter: nat, entries: map<string, Entry>)

  const EmptyRegistry := Registry(0, map[])

  function SubscriptionId(n: nat): string {
    "q" + Decimal.NatToString(n)
  }

  lemma SubscriptionIdInjective(a: nat, b: nat)
    requires SubscriptionId(a) == SubscriptionId(b)
    ensures a == b
  {
    assert Decimal.NatToString(a) == SubscriptionId(a)[1..] == SubscriptionId(b)[1..] == Decimal.NatToString(b);
    Decimal.NatToStringInjective(a, b);
  }

  /** An id the counter has already handed out. */
  ghost predicate Issued(reg: Registry, id: string) {
    exists k :: 1 <= k <= reg.counter && id == SubscriptionId(k)
  }

  /** Every stored entry sits under an id the counter has handed out. */
  ghost predicate Valid(reg: Registry) {
    forall id :: id in reg.entries ==> Issued(reg, id)
  }

  lemma EmptyRegistryValid()
    ensures Valid(EmptyRegistry)
  {
  }

  /**
   * `nextSubscriptionId`: `'q' + (++sNum)`. The id is new: the counter has never handed it
   * out, so no stored entry uses it.
   */
  function NextSubscriptionId(reg: Registry): (r: (string, Registry))
    ensures r.1.counter == reg.counter + 1 && r.1.entries == reg.entries
    ensures r.0 == SubscriptionId(r.1.counter)
    ensures !Issued(reg, r.0)
    ensures Valid(reg) ==> r.0 !in reg.entries
  {
    var n := reg.counter + 1;
    forall k | 1 <= k <= reg.counter
      ensures SubscriptionId(k) != SubscriptionId(n)
    {
      if SubscriptionId(k) == SubscriptionId(n) {
        SubscriptionIdInjective(k, n);
      }
    }
    (SubscriptionId(n), reg.(counter := n))
  }

  /** Ids drawn at different counter values differ: no id is ever issued twice. */
  lemma IdsNeverRepeat(reg: Registry)
    ensures var (first, reg1) := NextSubscriptionId(reg);
      var (second, _) := NextSubscriptionId(reg1);
      first != second
  {
  }

  /** A registry transition: the outcome, the new state, SDK calls made, cancellations dispatched. */
  datatype Step<+T> = Step(outcome: Result<T, Error>, registry: Registry, calls: seq<SdkCall>, dispatched: seq<Dispatch>)

  /** Nothing but entry `id` may differ between two entry maps. */
  ghost predicate OthersUnchanged(before: map<string, Entry>, after: map<string, Entry>, id: string) {
    && (forall k :: k != id ==> (k in before <==> k in after))
    && (forall k :: k != id && k in before ==> after[k] == before[k])
  }

  /**
   * `subscribeConditional`: after the location resolves, an id is drawn and the entry stored
   * BEFORE the listener is registered; if registering throws, the call fails, the id stays
   * used and the entry stays stored. Returns the step and the push counter after resolution.
   */
  function Subscribe(reg: Registry, sink: SinkId, q: Query, backend: Backend, loc: Location,
                     keys: nat, listen: Sync<()>): (r: (Step<string>, nat))
    ensures var resolved := GetRef(backend, loc, keys);
      && r.1 == resolved.keys
      && r.0.dispatched == []
      && (resolved.ref.Fail? ==>
            r.0.outcome == Fail(resolved.ref.error) && r.0.registry == reg && r.0.calls == [])
    ensures var resolved := GetRef(backend, loc, keys);
      var id := SubscriptionId(reg.counter + 1);
      resolved.ref.Success? ==>
        && r.0.registry.counter == reg.counter + 1
        && id in r.0.registry.entries
        && r.0.registry.entries[id] == Entry(resolved.ref.value, QueryEventType(q), id, sink)
        && OthersUnchanged(reg.entries, r.0.registry.entries, id)
        && r.0.calls == [Listen(resolved.ref.value, QueryOrderAndFilter(q), QueryEventType(q), id)]
        && (listen.Returned? ==> r.0.outcome == Success(id))
        && (listen.Raised? ==> r.0.outcome == Fail(ExTaskError(listen.text)))
        && (Valid(reg) ==> id !in reg.entries)
    ensures Valid(reg) ==> Valid(r.0.registry)
  {
    var resolved := GetRef(backend, loc, keys);
    match resolved.ref
    case Fail(e) => (Step(Fail(e), reg, [], []), resolved.keys)
    case Success(path) =>
      var (id, next) := NextSubscriptionId(reg);
      var eventType := QueryEventType(q);
      var stored := next.(entries := next.entries[id := Entry(path, eventType, id, sink)]);
      assert Valid(reg) ==> Valid(stored) by {
        if Valid(reg) {
          forall k | k in stored.entries
            ensures Issued(stored, k)
          {
            if k != id {
              assert Issued(reg, k);
              var j :| 1 <= j <= reg.counter && k == SubscriptionId(j);
              assert 1 <= j <= stored.counter;
            } else {
              assert k == SubscriptionId(stored.counter);
            }
          }
        }
      }
      var call := Listen(path, QueryOrderAndFilter(q), eventType, id);
      var outcome := match listen
        case Raised(text) => Fail(ExTaskError(text))
        case Returned(_) => Success(id);
      (Step(outcome, stored, [call], []), resolved.keys)
  }

  /**
   * `unsubscribe`: an unknown id fails with `UnknownSubscription` and changes nothing. A known
   * id's entry is deleted first, then `.off` is called with the stored handle, event type and
   * callback; if that returns, an `Unsubscribed` cancellation is dispatched and the task
   * succeeds with unit.
   */
  function Unsubscribe(reg: Registry, id: string, off: Sync<()>): (r: Step<()>)
    ensures id !in reg.entries ==>
      r.outcome == Fail(UnknownSubscription) && r.registry == reg && r.calls == [] && r.dispatched == []
    ensures id in reg.entries ==>
      var e := reg.entries[id];
      && id !in r.registry.entries
      && r.registry.counter == reg.counter
      && OthersUnchanged(reg.entries, r.registry.entries, id)
      && r.calls == [Unlisten(e.ref, e.eventType, e.callback)]
      && (off.Returned? ==>
            r.outcome == Success(()) && r.dispatched == [Dispatch(e.sink, Unsubscribed(id))])
      && (off.Raised? ==> r.outcome == Fail(ExTaskError(off.text)) && r.dispatched == [])
    ensures Valid(reg) ==> Valid(r.registry)
  {
    if id !in reg.entries then Step(Fail(UnknownSubscription), reg, [], [])
    else
      var e := reg.entries[id];
      var removed := reg.(entries := reg.entries - {id});
      var call := Unlisten(e.ref, e.eventType, e.callback);
      match off
      case Raised(text) => Step(Fail(ExTaskError(text)), removed, [call], [])
      case Returned(_) => Step(Success(()), removed, [call], [Dispatch(e.sink, Unsubscribed(id))])
  }

  /**
   * `onCancel`: the backend cancelled the listener. The subscriber's sink gets a `QueryError`
   * with the translated error; the registry is left exactly as it was.
   */
  function BackendCancel(reg: Registry, id: string, sink: SinkId, err: FbError): (r: Step<()>)
    ensures r.registry == reg && r.calls == []
    ensures |r.dispatched| == 1 && r.dispatched[0].sink == sink
    ensures r.dispatched[0].cancellation.QueryError?
    ensures r.dispatched[0].cancellation.id == id
    ensures r.dispatched[0].cancellation.error == FbTaskError(err)
  {
    Step(Success(()), reg, [], [Dispatch(sink, QueryError(id, FbTaskError(err)))])
  }

  /**
   * `onResponse`: every firing becomes a snapshot tagged with the subscription id; the task
   * the subscriber builds from it, if any, is performed.
   */
  function OnResponse<T>(id: string, fb: FbSnapshot, prevKey: Maybe<string>,
                         respond: Snapshot -> Maybe<T>): (performed: seq<T>)
    ensures |performed| <= 1
    ensures var s := Snapshot2Elm(id, fb, prevKey);
      (performed == [] <==> respond(s).Nothing?) && (|performed| == 1 ==> performed[0] == respond(s).value)
  {
    match respond(Snapshot2Elm(id, fb, prevKey))
    case Nothing => []
    case Just(t) => [t]
  }

  // ---- properties over several transitions --------------------------------------------

  /** A second unsubscribe of the same id fails with `UnknownSubscription`. */
  lemma UnsubscribeTwiceFails(reg: Registry, id: string, off1: Sync<()>, off2: Sync<()>)
    ensures Unsubscribe(Unsubscribe(reg, id, off1).registry, id, off2).outcome == Fail(UnknownSubscription)
  {
  }

  /**
   * Subscribing and unsubscribing at once delivers exactly one `Unsubscribed` cancellation, to
   * the subscriber's sink, and leaves the registry as it was apart from the advanced counter.
   */
  lemma SubscribeThenUnsubscribe(reg: Registry, sink: SinkId, q: Query, backend: Backend,
                                 loc: Location, keys: nat)
    requires Valid(reg)
    requires GetRef(backend, loc, keys).ref.Success?
    ensures var (s1, _) := Subscribe(reg, sink, q, backend, loc, keys, Returned(()));
      var s2 := Unsubscribe(s1.registry, s1.outcome.value, Returned(()));
      && s1.outcome.Success?
      && s2.outcome == Success(())
      && s1.dispatched + s2.dispatched == [Dispatch(sink, Unsubscribed(s1.outcome.value))]
      && s2.registry == reg.(counter := reg.counter + 1)
  {
    var (s1, _) := Subscribe(reg, sink, q, backend, loc, keys, Returned(()));
    var id := s1.outcome.value;
    var s2 := Unsubscribe(s1.registry, id, Returned(()));
    assert id !in reg.entries;
    assert s2.registry.entries == reg.entries;
  }

  /**
   * A failed listener registration still consumes the id and leaves the entry stored, so the
   * next subscription gets a different id and an unsubscribe of the failed id succeeds.
   */
  lemma FailedListenKeepsEntry(reg: Registry, sink: SinkId, q: Query, backend: Backend,
                               loc: Location, keys: nat, text: string)
    requires GetRef(backend, loc, keys).ref.Success?
    ensures var (s1, _) := Subscribe(reg, sink, q, backend, loc, keys, Raised(text));
      var id := SubscriptionId(reg.counter + 1);
      && s1.outcome.Fail?
      && id in s1.registry.entries
      && NextSubscriptionId(s1.registry).0 != id
      && Unsubscribe(s1.registry, id, Returned(())).outcome == Success(())
  {
    var (s1, _) := Subscribe(reg, sink, q, backend, loc, keys, Raised(text));
    var id := SubscriptionId(reg.counter + 1);
    if NextSubscriptionId(s1.registry).0 == id {
      SubscriptionIdInjective(reg.counter + 2, reg.counter + 1);
    }
  }

  /**
   * A backend cancellation does not free the entry: a later unsubscribe still finds it and
   * dispatches an `Unsubscribed` cancellation as well.
   */
  lemma BackendCancelKeepsEntry(reg: Registry, id: string, sink: SinkId, err: FbError)
    requires id in reg.entries
    ensures var s1 := BackendCancel(reg, id, sink, err);
      var s2 := Unsubscribe(s1.registry, id, Returned(()));
      s2.outcome == Success(()) && s2.dispatched == [Dispatch(reg.entries[id].sink, Unsubscribed(id))]
  {
  }
}

=== FILE: values.dfy ===
/**
 * JavaScript values as they cross between the binding and the backend SDK, and the small
 * conversions of src/Native/ElmFire.js:20-45 (`asMaybe`, `fromMaybe`, `priority2fb`,
 * `priority2elm`). Numbers are modelled as integers.
 */
module Values {
  import opened Elm

  datatype JsValue =
    | Undefined
    | Null
    | Bool(b: bool)
    | Num(n: int)
    | Str(s: string)
    | Obj(props: map<string, JsValue>)

  /** JavaScript truthiness: what an `if (x)` test lets through. */
  predicate Truthy(v: JsValue) {
    match v
    case Undefined => false
    case Null => false
    case Bool(b) => b
    case Num(n) => n != 0
    case Str(s) => s != ""
    case Obj(_) => true
  }

  /** `typeof v === 'undefined' || v === null` */
  predicate Nullish(v: JsValue) {
    v.Undefined? || v.Null?
  }

  /** Property read `v.name`; anything that is not an object has no such own property. */
  function Prop(v: JsValue, name: string): (r: JsValue)
    ensures !v.Obj? ==> r == Undefined
    ensures v.Obj? && name in v.props ==> r == v.props[name]
  {
    if v.Obj? && name in v.props then v.props[name] else Undefined
  }

  /** `a && b` */
  function JsAnd(a: JsValue, b: JsValue): (r: JsValue)
    ensures Truthy(r) <==> Truthy(a) && Truthy(b)
  {
    if Truthy(a) then b else a
  }

  /** `asMaybe`: null and undefined become `Nothing`, every other value is wrapped. */
  function AsMaybe(v: JsValue): (m: Maybe<JsValue>)
    ensures m == Nothing <==> Nullish(v)
    ensures m.Just? ==> m.value == v
  {
    if Nullish(v) then Nothing else Just(v)
  }

  /** `fromMaybe`: `Nothing` becomes null, `Just v` becomes `v`. */
  function FromMaybe(m: Maybe<JsValue>): (v: JsValue)
    ensures m.Just? && !Nullish(m.value) ==> AsMaybe(v) == m
    ensures m.Nothing? ==> AsMaybe(v) == Nothing
  {
    match m
    case Nothing => Null
    case Just(x) => x
  }

  /** Reading a value back through `fromMaybe(asMaybe(_))` only loses the undefined/null split. */
  lemma FromAsMaybe(v: JsValue)
    ensures FromMaybe(AsMaybe(v)) == (if v.Undefined? then Null else v)
  {
  }

  datatype Priority = NoPriority | NumberPriority(n: int) | StringPriority(s: string)

  /** `priority2fb`: the backend's representation of an Elm priority. */
  function Priority2Fb(p: Priority): (v: JsValue)
    ensures v.Null? || v.Num? || v.Str?
    ensures Priority2Elm(v) == p
  {
    match p
    case NoPriority => Null
    case NumberPriority(n) => Num(n)
    case StringPriority(s) => Str(s)
  }

  /**
   * `priority2elm`: dispatch on `Object.prototype.toString`; numbers and strings keep their
   * payload, every other backend value reads as no priority.
   */
  function Priority2Elm(v: JsValue): (p: Priority)
    ensures p.NumberPriority? <==> v.Num?
    ensures p.StringPriority? <==> v.Str?
    ensures v.Num? ==> p.n == v.n
    ensures v.Str? ==> p.s == v.s
  {
    match v
    case Num(n) => NumberPriority(n)
    case Str(s) => StringPriority(s)
    case _ => NoPriority
  }

  /** The backend values that `priority2fb` can produce come back unchanged. */
  lemma FbPriorityRoundTrip(v: JsValue)
    requires v.Null? || v.Num? || v.Str?
    ensures Priority2Fb(Priority2Elm(v)) == v
  {
  }
}
